=== FILE: README.md ===
# TrueBudget core in Dafny

The model covers the budgeting arithmetic of TrueBudget, a personal budgeting
app, and the pure helpers its Streamlit page uses.

The budget code works in a chain:
- It normalises weekly, biweekly and monthly amounts to monthly ones.
- It sums income, and sums fixed expenses in total and per category.
- It turns an amount or percent goal into a savings target.
- It splits the discretionary remainder over six variable categories. Each
  has a base weight, and each focus entry that names a category boosts that
  weight by 0.08. The weights are then renormalised and each share is
  rounded to cents.
- It lists threshold-based feasibility warnings.

The page then:
- formats money;
- parses the comma-separated focus list;
- rounds and clamps the remainder;
- computes percentages;
- picks one of four budget-health readings;
- fills the donut chart;
- strips zero-width characters from the advice text.

Files:
- `results.dfy`: the `Option` and `Result` types.
- `rounding.dfy`: `max`, and Python's `round(x, 2)` on exact reals, half to even.
- `sums.dfy`: sums of real-valued tables. There are two views: over a whole
  map, and in a dict's iteration order. The file also counts occurrences.
- `arith.dfy`: small facts about division and ordering.
- `seqs.dfy`: generic facts about concatenating sequences.
- `budget.dfy`: everything in `app/budget.py`.
- `text.dfy`: `str.strip`, `str.split`, `str.replace(c, "")`, and the digit
  grouping of the `,` format option.
- `dashboard.dfy`: the pure pieces of `app/main.py`, plus the two pages'
  pipelines that chain them with the budget code.

Money is an exact `real`. Errors are `Result` values: the two `ValueError`s
of the budget code are `InvalidFrequency` and `InvalidGoalType`. Warnings are
a datatype that carries the number each message quotes. The six variable
categories are a datatype, and `Name` maps each one to its dict key. A focus
entry boosts a category exactly when `CategoryNamed` finds that key.

## Model

| member | source | states |
|---|---|---|
| Budget.ToMonthly | app/budget.py:4-23 | "monthly" returns the amount unchanged, "weekly" returns amount·52/12 and "biweekly" amount·26/12; any other tag is `InvalidFrequency` with that tag; a non-negative amount stays non-negative |
| Budget.ToMonthlyLinear | app/budget.py:20-23 | normalisation scales with the amount, and scaling never changes whether a tag is accepted |
| Budget.SummarizeIncome | app/budget.py:26-27 | Ok exactly when every tag is valid; otherwise the error of the first bad row; the empty list gives 0; non-negative rows give a non-negative total |
| Budget.SummarizeIncomeAppend | app/budget.py:26-27 | the total of two concatenated lists is the sum of their totals |
| Budget.SummarizeIncomeNoDedup | app/budget.py:26-27 | a row already in the list counts again when it is repeated |
| Budget.Accumulate | app/budget.py:37-40 | a failed run of the expense loop always carries an unrecognised frequency tag |
| Budget.AccumulateFails | app/budget.py:37-38 | the expense loop fails exactly when some tag is bad, and then with the first bad row's error |
| Budget.AccumulateTotals | app/budget.py:37-40 | on valid rows the loop adds every row to the total and to its category's subtotal, starting from any running state |
| Budget.AccumulateMapSum | app/budget.py:37-40 | on valid rows the subtotal table's values grow by exactly the rows' monthly amounts |
| Budget.SummarizeFixedExpenses | app/budget.py:30-41 | Ok exactly when every tag is valid, with the first bad row's error otherwise; empty input gives `(0, {})`; the keys are exactly the categories that occur; each subtotal is its category's rows; the subtotals add up to the total |
| Budget.ComputeSavingsTarget | app/budget.py:44-49 | never negative; an amount goal gives `max(0, value)`; a percent goal gives `max(0, income·value/100)`; any other goal type is `InvalidGoalType`; a positive target comes from one of the two formulas |
| Budget.AmountGoalIgnoresIncome | app/budget.py:45-46 | an amount goal gives the same target whatever the income |
| Budget.FixedPct | app/budget.py:81 | with income, the percentage times income is 100 times the fixed total; with no income it is 0 |
| Budget.Warnings | app/budget.py:75-91 | no income gives exactly `[NoIncome]`; otherwise at most two messages and never `NoIncome`; the first is `HighFixed` exactly above 60% and `WatchFixed` exactly in (45%, 60%], and either one carries the fixed share; the last is `Shortfall` exactly when fixed + savings > income, and its gap is positive and equal to fixed + savings − income |
| Budget.WarningsSavingsMonotone | app/budget.py:82-89 | raising the savings target never clears a shortfall and leaves the fixed-share message unchanged |
| Budget.PctAbove | app/budget.py:81-85 | the fixed share passes a threshold exactly when fixed·100 passes threshold·income |
| Budget.CategoryNamedName | app/budget.py:65 | the `c in weights` lookup finds each category under its key and only there |
| Budget.DefaultWeightsFacts | app/budget.py:10-17 | the base table lists each of the six categories once; its weights are in (0, 1) and add up to 1 |
| Budget.FocusCategoriesCount | app/budget.py:64-66 | a category is boosted once for every focus entry equal to its key |
| Budget.BoostedWeight | app/budget.py:63-66 | a boosted weight is the base weight plus 0.08 per mention, so repeated entries stack |
| Budget.BoostedTotal | app/budget.py:63-69 | boosting adds 0.08 to the table's total per mention |
| Budget.NormalizeSumsToOne | app/budget.py:69-70 | renormalised weights add up to 1 |
| Budget.BoostedShareFormula | app/budget.py:60-70 | a share is (base + 0.08·mentions) / (1 + 0.08·recognised entries) |
| Budget.BoostedSharesWellFormed | app/budget.py:60-70 | whatever is boosted, the six renormalised shares are positive and add up to 1 |
| Budget.ShareFormula | app/budget.py:60-70 | a category's share for a focus list, stated in terms of that list's entries |
| Budget.AllocateVariableBudget | app/budget.py:52-72 | every category is a key; a remainder of zero or less maps all six to 0; otherwise each target is a non-negative whole number of cents within half a cent of remainder × share, and is exactly `RoundCents` of it, so a half-cent tie goes to the even cent |
| Budget.RoundedSharesTotal | app/budget.py:72 | rounded shares of d add up to d within half a cent per category |
| Budget.AllocationTotal | app/budget.py:52-72 | a positive remainder is handed out in full, up to three cents of rounding |
| Budget.FocusCategoriesAppend | app/budget.py:64-66 | recognising focus entries commutes with concatenating focus lists |
| Budget.UnknownFocusIgnored | app/budget.py:64-66 | an entry naming no category, wherever it stands, leaves the shares and the allocation unchanged |
| Budget.UnrecognisedFocusIsNoFocus | app/budget.py:64-72 | a focus list naming no category gives the no-focus shares and allocation |
| Budget.NoFocusIsBase | app/budget.py:60-70 | with no focus the shares are the base weights |
| Budget.FocusEntryRaisesShare | app/budget.py:63-70 | one more entry naming c strictly raises c's share over the same list without it; with the empty list this gives boosted versus unboosted |
| Budget.MentionRaisesShare | app/budget.py:63-70 | the same over recognised mentions |
| Budget.ShareRises | app/budget.py:63-70 | in closed form, one more mention of a category raises its share `(base + 0.08·o) / (1 + 0.08·n)` |
| Budget.ListedShareCanFall | app/budget.py:63-70 | listing Groceries together with four other categories gives Groceries less than its unboosted 30% |
| Budget.FocusOrderIrrelevant | app/budget.py:64-72 | two focus lists with the same entries in any order give the same shares and allocation |
| Budget.CountByCategory | app/budget.py:64-66 | every recognised mention is of one of the six categories |
| Rounding.RoundHalfEven | app/budget.py:72 | the result is within one half of the input; a tie goes to the even integer; the sign is kept |
| Rounding.RoundHalfEvenUnique | app/budget.py:72 | the contract above determines the result |
| Rounding.RoundCents | app/main.py:172 | a whole number of cents within half a cent of the input, with the input's sign; on a half-cent tie, the even number of cents |
| Rounding.RoundCentsTie | app/main.py:172 | a half-cent tie goes to the even number of cents |
| Rounding.RoundCentsWhole | app/main.py:174 | a whole number of cents rounds to itself |
| Rounding.RoundCentsIdempotent | app/main.py:172-174 | rounding twice rounds once |
| Text.Strip | app/main.py:178 | the result has no whitespace at either end |
| Text.StripSpec | app/main.py:178 | what is kept is a stretch of the input with only whitespace around it; nothing is kept exactly when the input is all whitespace |
| Text.StripIdempotent | app/main.py:178 | stripping twice strips once |
| Text.Split | app/main.py:178 | `split(",")` gives at least one piece; no piece holds the separator; joining the pieces gives back the text |
| Text.SplitJoin | app/main.py:178 | splitting pieces joined by the separator gives back the pieces, when none holds the separator |
| Text.SplitAppend | app/main.py:178 | splitting a + sep + b gives the pieces of a, then those of b |
| Text.RemoveChar | app/main.py:337-340 | `replace(ch, "")` leaves no `ch`, never lengthens the text, and changes nothing when `ch` is absent |
| Text.RemoveCharKeepsOthers | app/main.py:337-340 | every other character keeps its number of occurrences |
| Text.GroupFirst | app/main.py:22 | grouping keeps the first digit in front, and leaves three digits or fewer untouched |
| Text.StripPadding | app/main.py:178 | `strip` removes exactly the whitespace typed around an entry that is already stripped |
| Text.GroupShape | app/main.py:22 | the `,` option puts a comma exactly where the distance to the end is a multiple of four, and digits everywhere else |
| Text.UngroupGroup | app/main.py:22 | dropping the commas gives back the digits |
| Text.ValueOfDigitsOf | app/main.py:22 | the decimal digits of n read back as n |
| Dashboard.ShownCents | app/main.py:22 | the cents shown are the absolute value rounded to cents, a half-cent tie to the even cent |
| Dashboard.Money | app/main.py:21-22 | a `$`; a minus sign exactly for a negative amount; a point and exactly two digits at the end |
| Dashboard.MoneyGrouping | app/main.py:21-22 | the whole dollars start with a digit that is not a leading zero (a lone `0` aside) and carry a comma before every group of three |
| Dashboard.MoneyRoundTrip | app/main.py:21-22 | reading the rendered text back gives the sign and the amount rounded to cents |
| Dashboard.FocusEntries | app/main.py:178 | every kept piece is stripped and non-empty |
| Dashboard.ParseFocus | app/main.py:176-178 | every entry is stripped, non-empty and comma-free |
| Dashboard.BlankParsesEmpty | app/main.py:178 | text of only whitespace, the empty text included, gives no entries |
| Dashboard.TrailingBlankIgnored | app/main.py:178 | a blank piece after a comma adds no entry: `"Social, "` reads as `"Social"` |
| Dashboard.ParseFocusAppend | app/main.py:178 | order is kept: parsing a + "," + b gives the entries of a, then those of b |
| Dashboard.ParseFocusJoin | app/main.py:178 | entries that are stripped, non-empty and comma-free survive joining and parsing unchanged |
| Dashboard.FocusEntriesKeeps | app/main.py:178 | pieces that are already stripped and non-empty all pass the filter |
| Dashboard.FocusEntriesAppend | app/main.py:178 | stripping and filtering the pieces of two lists gives the entries of the first, then those of the second |
| Dashboard.FocusEntriesStrips | app/main.py:178 | pieces whose strips are non-empty contribute exactly those strips, in order |
| Dashboard.ParseFocusPadded | app/main.py:178 | clean entries typed with any whitespace before and after each, comma-separated, read back as exactly those entries |
| Dashboard.TwoEntriesCommaSpace | app/main.py:178 | two entries written with a comma and whitespace between them, as in the sidebar's default "Groceries, Social", read as those two entries |
| Dashboard.ParseFocusIdempotent | app/main.py:306 | parsing a rendered focus list again changes nothing |
| Dashboard.Discretionary | app/main.py:302 | a whole number of cents within half a cent of income − fixed − savings; negative only when fixed + savings exceed income; a half-cent tie goes to the even cent |
| Dashboard.RoundingTwiceIsOnce | app/main.py:172-174 | the dashboard's second `round(..., 2)` changes nothing |
| Dashboard.AllocationInput | app/main.py:180 | the allocator is never handed a negative amount, and is handed the remainder whenever that is not negative |
| Dashboard.Pct | app/main.py:218-219 | 0 when the whole is not positive; otherwise the percentage times the whole is 100 times the part |
| Dashboard.PctAbove | app/main.py:218-223 | a percentage passes a threshold exactly when the part passes that fraction of the whole |
| Dashboard.PctIsFixedPct | app/main.py:223 | with income, the page's fixed share is the one the warnings use |
| Dashboard.Interpret | app/main.py:233-241 | no reading without income; with income exactly one, the first that applies of a negative remainder, fixed over 60%, rent over 40%, and feasible, each stated as an if-and-only-if |
| Dashboard.HealthAgreesWithWarnings | app/main.py:233-237 | "not feasible" comes with a shortfall warning, and "fixed costs very high" with the high-fixed warning |
| Dashboard.TinyShortfallLooksFeasible | app/main.py:233-241 | the converse fails: with a whole-dollar slider value (income 1000, fixed 500.004, savings 500) the 0.004 shortfall reads as feasible while the warnings list it |
| Dashboard.DonutBuckets | app/main.py:244-248 | the discretionary slice is the remainder when that is not negative and zero when it is; fixed and savings are passed through |
| Dashboard.DonutCoversIncome | app/main.py:244-248 | when income covers fixed costs and savings, the slices add up to income within half a cent; past a half-cent shortfall the remainder slice is empty |
| Dashboard.Scrub | app/main.py:336-341 | no zero-width space, non-joiner, joiner or byte-order mark is left, and the text never grows |
| Dashboard.ScrubAppend | app/main.py:336-341 | scrubbing works piece by piece |
| Dashboard.ScrubIsVisible | app/main.py:336-341 | the scrub removes exactly those four characters and keeps every other character in order |
| Dashboard.ScrubIdempotent | app/main.py:336-341 | scrubbed text has nothing left to scrub |
| Dashboard.ProfileOrDefault | app/main.py:156-157 | a missing profile reads as an amount goal of 0 and an empty focus text, which parses to no entries; a stored profile is used as it is |
| Dashboard.PlanFor | app/main.py:176-181 | the focus list is the parsed focus text, the warnings are `Warnings` of income, fixed total and savings, and the allocation is `AllocateVariableBudget` of the clamped remainder and that list; every target is a non-negative whole number of cents, all zero for a remainder of zero or less; no income gives only `NoIncome` |
| Dashboard.PlanHandsOutRemainder | app/main.py:180 | a positive remainder is handed out in full to within three cents, each category getting its boosted share to within half a cent |
| Dashboard.ReadInputs | app/main.py:150-159 | Ok exactly when all income tags, all expense tags and the goal type are valid; the error comes from income first, then expenses, then the goal type; on success income, fixed summary and target are what `summarize_income`, `summarize_fixed_expenses` and `compute_savings_target` return for the profile (or its default), and the target is not negative |
| Dashboard.PercentGoalTarget | app/main.py:298-300 | with a percent goal, the target times 100 is income × percentage, or 0 when that is negative |
| Dashboard.AdvicePlan | app/main.py:291-309 | fails exactly when reading the inputs fails, with the same error; otherwise the plan carries the read income, fixed summary and profile target, the once-rounded remainder (within half a cent of the exact one), the parsed focus text of the profile or its default, `Warnings` of those figures, and `AllocateVariableBudget` of the clamped remainder and that focus list |
| Dashboard.DashboardFor | app/main.py:150-248 | fails exactly when the advice page would, with the same error; the plan carries the slider's savings figure; the donut's remainder is not negative |
| Dashboard.DashboardOnceRounded | app/main.py:171-174 | the dashboard's view is the plan for the once-rounded remainder at the slider's figure |
| Dashboard.DashboardMatchesAdvice | app/main.py:171-309 | with the slider at the profile's target, the dashboard's plan equals the advice payload's |
| Dashboard.ScenarioInputs | app/main.py:153-159 | 2000 of monthly pay, 600 of monthly rent and an amount goal of 300 read as income 2000, fixed {Rent: 600} and target 300 |
| Dashboard.Scenario | app/main.py:150-241 | that household, with the slider at 300, has 1100 left, its focus list read back as typed, no warnings, and a feasible reading |
| Dashboard.ScenarioGroceries | app/budget.py:52-72 | with Groceries as the only focus entry, Groceries gets more than 330 of the 1100, and the targets add up to 1100 within three cents |

## Left out

- `app/db.py` is not part of this model. The record store is replaced by the
  lists and the optional profile that the page functions take as parameters.
- `app/llm.py` is not part of this model. The advice text is a parameter of
  `Scrub`, and `ollama_available` and the HTTP call are not modelled.
- Streamlit widgets, forms, tabs, pandas tables and plotly charts are UI and
  are not modelled. The donut is modelled as its three amounts only.
- The what-if slider is a natural-number parameter. Its range
  (0..income), its step of 25 and its default `int(round(target))` are UI
  constraints, so they are not modelled.
- IEEE-754 floats are not modelled. Amounts are exact reals, so 52/12 is
  exact and summation order does not matter. `round(x, 2)` and the `.2f`
  conversion are modelled as rounding of the exact value to the nearest cent,
  half to even. On binary floats, Python rounds the stored value, which can
  differ at half-cent boundaries.
- The warning wording and the `:.0f` percentages are not modelled.
  `HighFixed` and `WatchFixed` carry the exact percentage, and `Shortfall`
  carries the exact gap.
- `Budget.AllocateVariableBudget` returns a map keyed by the `Category`
  datatype, not by strings. `Budget.Name` gives the string key. The Python
  dict's iteration order is the sequence `VariableCategories`.
- `Text.IsSpace` lists the characters for which Python's `str.isspace` holds
  in current Unicode. That set depends on the Unicode version.
- `Budget.FixedPct` keeps the `else 0.0` branch even though `warnings` only
  reaches it with positive income.
- `Budget.FocusEntryRaisesShare` states that the boost raises a share
  relative to the same list without the added entry. Relative to the
  no-focus run, it covers only a single-entry list (take the list empty).
  The general claim is false: listing Groceries with four other categories
  lowers Groceries' share from 0.30 to 0.38/1.40 (`Budget.ListedShareCanFall`).
- `Dashboard.Interpret` is "infeasible" only when the twice-rounded remainder
  is negative. A shortfall smaller than half a cent therefore reads as
  feasible while `warnings` lists it (`Dashboard.TinyShortfallLooksFeasible`;
  the savings figure there is a whole slider value, fixed costs carry the
  fraction).

=== FILE: arith.dfy ===
/** Facts about ordered real arithmetic that the share and percentage
    proofs use; each is one step the solver does not take on its own in a
    larger context. */
module Arith {

  /** A positive amount over a positive total is positive. */
  lemma DividePositive(a: real, t: real)
    requires a > 0.0 && t > 0.0
    ensures a / t > 0.0
  {
  }

  /** Adding the same positive amount to both sides of a proper fraction
      raises it. */
  lemma RatioRises(x: real, t: real, b: real)
    requires 0.0 < x < t && b > 0.0
    ensures (x + b) / (t + b) > x / t
  {
    var p := (x + b) / (t + b);
    var q := x / t;
    DivideTimes(x + b, t + b);
    DivideTimes(x, t);
    QuotientBelowOne(x, t);
    MulStrict(q, 1.0, b);
    Distribute(q, t, b);
    Below(p * (t + b), q * (t + b), q * t, q * b, x, b);
    CancelPositive(p, q, t + b);
  }

  /** The linear step of the argument above, with the products as plain
      numbers: the new ratio times the new total is `x + b`, while the old
      ratio times the new total splits into `x` plus less than `b`. */
  lemma Below(newScaled: real, oldScaled: real, oldPart: real, extraPart: real, x: real, b: real)
    requires newScaled == x + b && oldPart == x && extraPart < 1.0 * b
    requires oldScaled == oldPart + extraPart
    ensures newScaled > oldScaled
  {
  }

  lemma DivideTimes(a: real, t: real)
    requires t != 0.0
    ensures a / t * t == a
  {
  }

  lemma QuotientBelowOne(x: real, t: real)
    requires 0.0 <= x < t
    ensures x / t < 1.0
  {
  }

  lemma Distribute(q: real, t: real, b: real)
    ensures q * (t + b) == q * t + q * b
  {
  }

  lemma MulStrict(a: real, b: real, c: real)
    requires a < b && c > 0.0
    ensures a * c < b * c
  {
  }

  lemma CancelPositive(a: real, b: real, c: real)
    requires a * c > b * c && c > 0.0
    ensures a > b
  {
  }

  /** Dividing by a positive total preserves the comparison with a bound
      scaled by that total. */
  lemma DivideAbove(a: real, t: real, bound: real)
    requires t > 0.0
    ensures a / t > bound <==> a > bound * t
  {
    var q := a / t;
    assert q * t == a;
    if q > bound {
      MulStrict(bound, q, t);
    }
    if a > bound * t {
      CancelPositive(q, bound, t);
    }
  }
}

=== FILE: budget.dfy ===
/** The budgeting arithmetic of `app/budget.py`: frequency normalisation,
    income and fixed-expense aggregation, the savings target, the weighted
    split of the discretionary remainder, and the feasibility warnings.
    Money is an exact `real`; Python floats are not modelled. */
module Budget {
  import opened Results
  import opened Rounding
  import opened Sums
  import opened Arith

  /** The two `ValueError`s the core raises. */
  datatype BudgetError =
    | InvalidFrequency(frequency: string)
    | InvalidGoalType(goalType: string)

  /** An income row as the record store hands it over. */
  datatype IncomeSource = IncomeSource(name: string, amount: real, frequency: string)

  /** A fixed-expense row; `category` is free text. */
  datatype FixedExpense = FixedExpense(name: string, amount: real, frequency: string, category: string)

  /** The pair `(total_fixed, category_totals)`. */
  datatype ExpenseSummary = ExpenseSummary(total: real, byCategory: map<string, real>)

  /** One feasibility message, carrying the number its text would quote. */
  datatype Warning =
    | NoIncome
    | HighFixed(fixedPct: real)
    | WatchFixed(fixedPct: real)
    | Shortfall(gap: real)

  // ---------------------------------------------------------------------
  // Frequency normalisation
  // ---------------------------------------------------------------------

  /** Monthly factor of each recognised frequency tag. */
  const FreqToMonthly: map<string, real> :=
    map["weekly" := 52.0 / 12.0, "biweekly" := 26.0 / 12.0, "monthly" := 1.0]

  predicate ValidFrequency(frequency: string)
  {
    frequency in FreqToMonthly
  }

  /** Monthly equivalent of `amount` paid at `frequency`. */
  function ToMonthly(amount: real, frequency: string): (r: Result<real, BudgetError>)
    ensures r.Ok? <==> frequency == "weekly" || frequency == "biweekly" || frequency == "monthly"
    ensures r.Err? ==> r.error == InvalidFrequency(frequency)
    ensures frequency == "monthly" ==> r == Ok(amount)
    ensures frequency == "weekly" ==> r == Ok(amount * 52.0 / 12.0)
    ensures frequency == "biweekly" ==> r == Ok(amount * 26.0 / 12.0)
    ensures r.Ok? && amount >= 0.0 ==> r.value >= 0.0
  {
    if frequency !in FreqToMonthly then Err(InvalidFrequency(frequency))
    else Ok(amount * FreqToMonthly[frequency])
  }

  /** Normalisation is linear in the amount, and scaling never changes
      whether the tag is accepted. */
  lemma ToMonthlyLinear(a: real, c: real, frequency: string)
    ensures ToMonthly(c * a, frequency).Ok? == ToMonthly(a, frequency).Ok?
    ensures ToMonthly(a, frequency).Ok? ==>
              ToMonthly(c * a, frequency).value == c * ToMonthly(a, frequency).value
  {
  }

  // ---------------------------------------------------------------------
  // Income aggregation
  // ---------------------------------------------------------------------

  predicate IncomesValid(incomes: seq<IncomeSource>)
  {
    forall i :: 0 <= i < |incomes| ==> ValidFrequency(incomes[i].frequency)
  }

  /** `e` is the error for the first income row whose tag is not recognised. */
  predicate FirstInvalidIncome(incomes: seq<IncomeSource>, e: BudgetError)
  {
    exists i :: 0 <= i < |incomes| && IncomesValid(incomes[..i])
      && !ValidFrequency(incomes[i].frequency) && e == InvalidFrequency(incomes[i].frequency)
  }

  /** Total monthly income: every row counts once, in order; the first bad
      tag aborts the sum. */
  function SummarizeIncome(incomes: seq<IncomeSource>): (r: Result<real, BudgetError>)
    ensures r.Ok? <==> IncomesValid(incomes)
    ensures r.Err? ==> FirstInvalidIncome(incomes, r.error)
    ensures |incomes| == 0 ==> r == Ok(0.0)
    ensures r.Ok? && (forall i :: 0 <= i < |incomes| ==> incomes[i].amount >= 0.0) ==> r.value >= 0.0
  {
    if |incomes| == 0 then Ok(0.0)
    else
      match ToMonthly(incomes[0].amount, incomes[0].frequency)
      case Err(e) =>
        assert incomes[..0] == [];
        Err(e)
      case Ok(monthly) =>
        var rest := SummarizeIncome(incomes[1..]);
        if rest.Err? then
          var i :| 0 <= i < |incomes[1..]| && IncomesValid(incomes[1..][..i])
                   && !ValidFrequency(incomes[1..][i].frequency) && rest.error == InvalidFrequency(incomes[1..][i].frequency);
          assert incomes[..i + 1] == [incomes[0]] + incomes[1..][..i];
          Err(rest.error)
        else
          Ok(monthly + rest.value)
  }

  /** Aggregation is additive over concatenation: the total of two lists is
      the sum of their totals. */
  lemma {:induction false} SummarizeIncomeAppend(a: seq<IncomeSource>, b: seq<IncomeSource>)
    requires IncomesValid(a) && IncomesValid(b)
    ensures SummarizeIncome(a + b).Ok?
    ensures SummarizeIncome(a + b).value == SummarizeIncome(a).value + SummarizeIncome(b).value
  {
    if |a| == 0 {
      assert a + b == b;
    } else {
      assert (a + b)[1..] == a[1..] + b;
      SummarizeIncomeAppend(a[1..], b);
    }
  }

  /** No deduplication: a row already present counts again when repeated. */
  lemma SummarizeIncomeNoDedup(incomes: seq<IncomeSource>, s: IncomeSource)
    requires s in incomes && IncomesValid(incomes)
    ensures SummarizeIncome(incomes + [s]).Ok?
    ensures SummarizeIncome(incomes + [s]).value
            == SummarizeIncome(incomes).value + ToMonthly(s.amount, s.frequency).value
  {
    SummarizeIncomeAppend(incomes, [s]);
  }

  // ---------------------------------------------------------------------
  // Fixed-expense aggregation
  // ---------------------------------------------------------------------

  predicate ExpensesValid(es: seq<FixedExpense>)
  {
    forall i :: 0 <= i < |es| ==> ValidFrequency(es[i].frequency)
  }

  predicate FirstInvalidExpense(es: seq<FixedExpense>, e: BudgetError)
  {
    exists i :: 0 <= i < |es| && ExpensesValid(es[..i])
      && !ValidFrequency(es[i].frequency) && e == InvalidFrequency(es[i].frequency)
  }

  /** Monthly amount of a row whose tag is recognised. */
  function MonthlyOf(e: FixedExpense): real
    requires ValidFrequency(e.frequency)
  {
    ToMonthly(e.amount, e.frequency).value
  }

  /** Reference total: the monthly amounts of all rows. */
  function ExpenseTotal(es: seq<FixedExpense>): real
    requires ExpensesValid(es)
  {
    if |es| == 0 then 0.0 else MonthlyOf(es[0]) + ExpenseTotal(es[1..])
  }

  /** Reference subtotal: the monthly amounts of the rows filed under `k`. */
  function CategoryTotal(es: seq<FixedExpense>, k: string): (t: real)
    requires ExpensesValid(es)
    ensures (forall i :: 0 <= i < |es| ==> es[i].amount >= 0.0) ==> t >= 0.0
  {
    if |es| == 0 then 0.0
    else (if es[0].category == k then MonthlyOf(es[0]) else 0.0) + CategoryTotal(es[1..], k)
  }

  /** The categories that occur among the rows. */
  function Categories(es: seq<FixedExpense>): set<string>
  {
    set i | 0 <= i < |es| :: es[i].category
  }

  /** The loop of `summarize_fixed_expenses`, from a running total and a
      running category table. */
  function Accumulate(es: seq<FixedExpense>, total: real, cats: map<string, real>): (r: Result<ExpenseSummary, BudgetError>)
    ensures r.Err? ==> r.error.InvalidFrequency? && !ValidFrequency(r.error.frequency)
    decreases |es|
  {
    if |es| == 0 then Ok(ExpenseSummary(total, cats))
    else
      var e := es[0];
      match ToMonthly(e.amount, e.frequency)
      case Err(err) => Err(err)
      case Ok(monthly) =>
        Accumulate(es[1..], total + monthly, cats[e.category := Get(cats, e.category) + monthly])
  }

  /** The loop fails exactly when some row's tag is unrecognised, and then
      with the first such row's error. */
  lemma {:induction false} AccumulateFails(es: seq<FixedExpense>, total: real, cats: map<string, real>)
    ensures Accumulate(es, total, cats).Ok? <==> ExpensesValid(es)
    ensures Accumulate(es, total, cats).Err? ==> FirstInvalidExpense(es, Accumulate(es, total, cats).error)
    decreases |es|
  {
    if |es| > 0 {
      var e := es[0];
      var rest := es[1..];
      match ToMonthly(e.amount, e.frequency)
      case Err(err) =>
        assert Accumulate(es, total, cats) == Err(err);
        assert es[..0] == [];
      case Ok(monthly) =>
        var cats' := cats[e.category := Get(cats, e.category) + monthly];
        assert Accumulate(es, total, cats) == Accumulate(rest, total + monthly, cats');
        AccumulateFails(rest, total + monthly, cats');
        var r := Accumulate(rest, total + monthly, cats');
        if r.Err? {
          var i :| 0 <= i < |rest| && ExpensesValid(rest[..i])
                   && !ValidFrequency(rest[i].frequency) && r.error == InvalidFrequency(rest[i].frequency);
          assert es[..i + 1] == [e] + rest[..i];
        } else {
          forall i | 0 <= i < |es| ensures ValidFrequency(es[i].frequency) {
            if i > 0 { assert es[i] == rest[i - 1]; }
          }
        }
    }
  }

  lemma CategoriesCons(es: seq<FixedExpense>)
    requires |es| > 0
    ensures Categories(es) == {es[0].category} + Categories(es[1..])
  {
    var rest := es[1..];
    forall c | c in Categories(es) ensures c in {es[0].category} + Categories(rest) {
      var i :| 0 <= i < |es| && es[i].category == c;
      if i > 0 { assert rest[i - 1].category == c; }
    }
    forall c | c in Categories(rest) ensures c in Categories(es) {
      var i :| 0 <= i < |rest| && rest[i].category == c;
      assert es[i + 1].category == c;
    }
  }

  /** On valid rows the loop adds every row to the running total and to its
      category's running subtotal. */
  lemma {:induction false} AccumulateTotals(es: seq<FixedExpense>, total: real, cats: map<string, real>)
    requires ExpensesValid(es)
    ensures Accumulate(es, total, cats).Ok?
    ensures Accumulate(es, total, cats).value.total == total + ExpenseTotal(es)
    ensures Accumulate(es, total, cats).value.byCategory.Keys == cats.Keys + Categories(es)
    ensures forall k :: k in Accumulate(es, total, cats).value.byCategory ==>
              Accumulate(es, total, cats).value.byCategory[k] == Get(cats, k) + CategoryTotal(es, k)
    decreases |es|
  {
    if |es| > 0 {
      var e := es[0];
      var rest := es[1..];
      var monthly := MonthlyOf(e);
      var cats' := cats[e.category := Get(cats, e.category) + monthly];
      assert ValidFrequency(e.frequency);
      assert Accumulate(es, total, cats) == Accumulate(rest, total + monthly, cats');
      AccumulateTotals(rest, total + monthly, cats');
      CategoriesCons(es);
    }
  }

  /** On valid rows the final table's values add up to the starting table's
      plus every row's monthly amount. */
  lemma {:induction false} AccumulateMapSum(es: seq<FixedExpense>, total: real, cats: map<string, real>)
    requires ExpensesValid(es)
    ensures Accumulate(es, total, cats).Ok?
    ensures MapSum(Accumulate(es, total, cats).value.byCategory) == MapSum(cats) + ExpenseTotal(es)
    decreases |es|
  {
    AccumulateFails(es, total, cats);
    if |es| > 0 {
      var e := es[0];
      var rest := es[1..];
      var monthly := MonthlyOf(e);
      var cats' := cats[e.category := Get(cats, e.category) + monthly];
      AccumulateMapSum(rest, total + monthly, cats');
      MapSumUpdate(cats, e.category, Get(cats, e.category) + monthly);
    }
  }

  /** `summarize_fixed_expenses`: the monthly total, and a table from each
      category that occurs to its monthly subtotal. */
  function SummarizeFixedExpenses(es: seq<FixedExpense>): (r: Result<ExpenseSummary, BudgetError>)
    ensures r.Ok? <==> ExpensesValid(es)
    ensures r.Err? ==> FirstInvalidExpense(es, r.error)
    ensures |es| == 0 ==> r == Ok(ExpenseSummary(0.0, map[]))
    ensures r.Ok? ==> r.value.total == ExpenseTotal(es)
    ensures r.Ok? ==> r.value.byCategory.Keys == Categories(es)
    ensures r.Ok? ==> forall k :: k in r.value.byCategory ==> r.value.byCategory[k] == CategoryTotal(es, k)
    ensures r.Ok? ==> MapSum(r.value.byCategory) == r.value.total
  {
    AccumulateFails(es, 0.0, map[]);
    if ExpensesValid(es) then
      AccumulateTotals(es, 0.0, map[]);
      AccumulateMapSum(es, 0.0, map[]);
      assert MapSum<string>(map[]) == 0.0;
      Accumulate(es, 0.0, map[])
    else
      Accumulate(es, 0.0, map[])
  }

  // ---------------------------------------------------------------------
  // Savings target
  // ---------------------------------------------------------------------

  /** Monthly savings target from an amount goal or a percent-of-income goal,
      clamped at zero. */
  function ComputeSavingsTarget(income: real, goalType: string, goalValue: real): (r: Result<real, BudgetError>)
    ensures r.Ok? <==> goalType == "amount" || goalType == "percent"
    ensures r.Err? ==> r.error == InvalidGoalType(goalType)
    ensures r.Ok? ==> r.value >= 0.0
    ensures goalType == "amount" && goalValue >= 0.0 ==> r == Ok(goalValue)
    ensures goalType == "amount" && goalValue < 0.0 ==> r == Ok(0.0)
    ensures goalType == "percent" && income * goalValue >= 0.0 ==> r.Ok? && r.value * 100.0 == income * goalValue
    ensures goalType == "percent" && income * goalValue < 0.0 ==> r == Ok(0.0)
    ensures r.Ok? && r.value > 0.0 ==> (goalType == "amount" && r.value == goalValue)
                                       || (goalType == "percent" && r.value * 100.0 == income * goalValue)
  {
    if goalType == "amount" then Ok(Max(0.0, goalValue))
    else if goalType == "percent" then Ok(Max(0.0, income * (goalValue / 100.0)))
    else Err(InvalidGoalType(goalType))
  }

  /** An amount goal does not look at income. */
  lemma AmountGoalIgnoresIncome(income1: real, income2: real, goalValue: real)
    ensures ComputeSavingsTarget(income1, "amount", goalValue) == ComputeSavingsTarget(income2, "amount", goalValue)
  {
  }

  // ---------------------------------------------------------------------
  // Feasibility warnings
  // ---------------------------------------------------------------------

  /** Fixed expenses as a percentage of income; zero when there is no
      income to divide by. */
  function FixedPct(income: real, fixed: real): (p: real)
    ensures income != 0.0 ==> p * income == fixed * 100.0
    ensures income == 0.0 ==> p == 0.0
  {
    if income != 0.0 then fixed / income * 100.0 else 0.0
  }

  /** `warnings`: no income gives that message alone; otherwise at most one
      fixed-share message (over 60% high, over 45% watch), then a shortfall
      message when fixed costs and savings exceed income. */
  function Warnings(income: real, fixed: real, savings: real): (r: seq<Warning>)
    ensures |r| <= 2
    ensures income <= 0.0 ==> r == [NoIncome]
    ensures income > 0.0 ==> forall i :: 0 <= i < |r| ==> !r[i].NoIncome?
    ensures (|r| > 0 && r[0].HighFixed?) <==> income > 0.0 && fixed * 100.0 > 60.0 * income
    ensures (|r| > 0 && r[0].WatchFixed?) <==> income > 0.0 && 45.0 * income < fixed * 100.0 <= 60.0 * income
    ensures forall i :: 0 <= i < |r| && (r[i].HighFixed? || r[i].WatchFixed?) ==>
              i == 0 && r[i].fixedPct * income == fixed * 100.0
    ensures (|r| > 0 && r[|r| - 1].Shortfall?) <==> income > 0.0 && fixed + savings > income
    ensures forall i :: 0 <= i < |r| && r[i].Shortfall? ==>
              i == |r| - 1 && r[i].gap > 0.0 && r[i].gap + income == fixed + savings
  {
    if income <= 0.0 then [NoIncome]
    else
      var pct := FixedPct(income, fixed);
      PctAbove(income, fixed, 60.0);
      PctAbove(income, fixed, 45.0);
      var share :=
        if pct > 60.0 then [HighFixed(pct)]
        else if pct > 45.0 then [WatchFixed(pct)]
        else [];
      var shortfall :=
        if fixed + savings > income then [Shortfall((fixed + savings) - income)]
        else [];
      share + shortfall
  }

  /** Raising the savings target never clears a shortfall and never changes
      the fixed-share message, which depends on income and fixed costs only. */
  lemma WarningsSavingsMonotone(income: real, fixed: real, s1: real, s2: real)
    requires s1 <= s2
    ensures var r1 := Warnings(income, fixed, s1);
            var r2 := Warnings(income, fixed, s2);
            && (|r1| > 0 && r1[|r1| - 1].Shortfall? ==> |r2| > 0 && r2[|r2| - 1].Shortfall?)
            && (|r1| > 0 && !r1[0].Shortfall? <==> |r2| > 0 && !r2[0].Shortfall?)
            && (|r1| > 0 && !r1[0].Shortfall? ==> r1[0] == r2[0])
  {
  }

  /** The percentage passes a threshold exactly when the fixed costs pass
      that fraction of income. */
  lemma PctAbove(income: real, fixed: real, bound: real)
    requires income > 0.0
    ensures FixedPct(income, fixed) > bound <==> fixed * 100.0 > bound * income
  {
    DivideAbove(fixed * 100.0, income, bound);
    assert fixed / income * 100.0 == (fixed * 100.0) / income;
  }

  // ---------------------------------------------------------------------
  // Discretionary allocation
  // ---------------------------------------------------------------------

  /** The six variable spending categories of the weight table. */
  datatype Category = Groceries | FoodOut | Social | Transport | Misc | InvestingExtra

  /** The category's key in the weight table and in the allocation. */
  function Name(c: Category): string
  {
    match c
    case Groceries => "Groceries"
    case FoodOut => "Food Out"
    case Social => "Social"
    case Transport => "Transport"
    case Misc => "Misc"
    case InvestingExtra => "Investing (Extra)"
  }

  /** The lookup `c in weights` for a focus entry: the category whose key is
      exactly `s`, if there is one. */
  function CategoryNamed(s: string): (r: Option<Category>)
    ensures r.Some? ==> Name(r.value) == s
  {
    if s == "Groceries" then Some(Groceries)
    else if s == "Food Out" then Some(FoodOut)
    else if s == "Social" then Some(Social)
    else if s == "Transport" then Some(Transport)
    else if s == "Misc" then Some(Misc)
    else if s == "Investing (Extra)" then Some(InvestingExtra)
    else None
  }

  /** Every category is found under its own key, and only there. */
  lemma CategoryNamedName(c: Category, s: string)
    ensures CategoryNamed(Name(c)) == Some(c)
    ensures CategoryNamed(s) == Some(c) <==> s == Name(c)
  {
  }

  /** The categories in the order the weight table lists them. */
  const VariableCategories: seq<Category> :=
    [Groceries, FoodOut, Social, Transport, Misc, InvestingExtra]

  /** Base share of each variable category. */
  const DefaultVariableWeights: map<Category, real> :=
    map[Groceries := 0.30, FoodOut := 0.15, Social := 0.15,
        Transport := 0.15, Misc := 0.15, InvestingExtra := 0.10]

  /** Weight added per matching focus entry. */
  const FocusBoost: real := 0.08

  /** The weight table lists every category once, and its base weights are
      positive and add up to one. */
  lemma DefaultWeightsFacts()
    ensures IsOrderOf(VariableCategories, DefaultVariableWeights)
    ensures forall c :: c in DefaultVariableWeights
    ensures forall c :: 0.0 < DefaultVariableWeights[c] < 1.0
    ensures SumOver(DefaultVariableWeights, VariableCategories) == 1.0
  {
    var cs := VariableCategories;
    assert cs[1..] == [FoodOut, Social, Transport, Misc, InvestingExtra];
    assert cs[1..][1..] == [Social, Transport, Misc, InvestingExtra];
    forall c: Category ensures c in cs {
      match c
      case Groceries => assert cs[0] == c;
      case FoodOut => assert cs[1] == c;
      case Social => assert cs[2] == c;
      case Transport => assert cs[3] == c;
      case Misc => assert cs[4] == c;
      case InvestingExtra => assert cs[5] == c;
    }
  }

  /** The categories the focus entries name, in order; an entry that names
      no category is dropped. */
  function FocusCategories(focus: seq<string>): (cs: seq<Category>)
    ensures |cs| <= |focus|
  {
    if |focus| == 0 then []
    else match CategoryNamed(focus[0])
      case Some(c) => [c] + FocusCategories(focus[1..])
      case None => FocusCategories(focus[1..])
  }

  /** A category is boosted once for every focus entry equal to its key. */
  lemma {:induction false} FocusCategoriesCount(focus: seq<string>, c: Category)
    ensures Occurrences(FocusCategories(focus), c) == Occurrences(focus, Name(c))
  {
    if |focus| > 0 {
      FocusCategoriesCount(focus[1..], c);
      CategoryNamedName(c, focus[0]);
    }
  }

  /** The boosting loop, over the focus entries that name a category: each
      adds the boost to that category's weight. */
  function BoostWeights(w: map<Category, real>, cs: seq<Category>): (r: map<Category, real>)
    ensures r.Keys == w.Keys
  {
    if |cs| == 0 then w
    else
      var c := cs[0];
      BoostWeights(if c in w then w[c := w[c] + FocusBoost] else w, cs[1..])
  }

  /** A category's boosted weight is its weight plus one boost per mention;
      repeated mentions stack. */
  lemma {:induction false} BoostedWeight(w: map<Category, real>, cs: seq<Category>, c: Category)
    requires c in w
    ensures BoostWeights(w, cs)[c] == w[c] + FocusBoost * Occurrences(cs, c) as real
  {
    if |cs| > 0 {
      var d := cs[0];
      BoostedWeight(if d in w then w[d := w[d] + FocusBoost] else w, cs[1..], c);
    }
  }

  /** Boosting adds one boost to the table's total per mention. */
  lemma {:induction false} BoostedTotal(w: map<Category, real>, keys: seq<Category>, cs: seq<Category>)
    requires IsOrderOf(keys, w)
    requires forall c :: c in w
    ensures Covers(w, keys) && Covers(BoostWeights(w, cs), keys)
    ensures SumOver(BoostWeights(w, cs), keys) == SumOver(w, keys) + FocusBoost * |cs| as real
  {
    if |cs| > 0 {
      var c := cs[0];
      var w' := w[c := w[c] + FocusBoost];
      BoostedTotal(w', keys, cs[1..]);
      SumOverUpdate(w, keys, c, w[c] + FocusBoost);
    }
  }

  /** Divide every weight by the total so that the weights add up to one. */
  function Normalize(w: map<Category, real>, keys: seq<Category>): (r: map<Category, real>)
    requires Covers(w, keys) && SumOver(w, keys) > 0.0
    ensures r.Keys == w.Keys
    ensures forall c :: c in r ==> r[c] == w[c] / SumOver(w, keys)
  {
    Divide(w, SumOver(w, keys))
  }

  /** Renormalised weights add up to one. */
  lemma NormalizeSumsToOne(w: map<Category, real>, keys: seq<Category>)
    requires Covers(w, keys) && SumOver(w, keys) > 0.0
    ensures Covers(Normalize(w, keys), keys)
    ensures SumOver(Normalize(w, keys), keys) == 1.0
  {
    var t := SumOver(w, keys);
    SumOverDivide(w, keys, t);
    assert t / t == 1.0;
  }

  /** The boosted weight table: every category, positive weights, and a total
      of one plus a boost per mention. */
  lemma BoostedDefaults(cs: seq<Category>)
    ensures Covers(BoostWeights(DefaultVariableWeights, cs), VariableCategories)
    ensures forall c :: c in BoostWeights(DefaultVariableWeights, cs)
    ensures forall c :: BoostWeights(DefaultVariableWeights, cs)[c] > 0.0
    ensures SumOver(BoostWeights(DefaultVariableWeights, cs), VariableCategories)
            == 1.0 + FocusBoost * |cs| as real
  {
    DefaultWeightsFacts();
    BoostedTotal(DefaultVariableWeights, VariableCategories, cs);
    forall c ensures BoostWeights(DefaultVariableWeights, cs)[c] > 0.0 {
      BoostedWeight(DefaultVariableWeights, cs, c);
    }
  }

  /** The renormalised weights after boosting the mentioned categories. */
  function BoostedShares(cs: seq<Category>): (w: map<Category, real>)
    ensures forall c :: c in w
  {
    BoostedDefaults(cs);
    Normalize(BoostWeights(DefaultVariableWeights, cs), VariableCategories)
  }

  /** Closed form of a share: the boosted weight over the boosted total. */
  lemma BoostedShareFormula(cs: seq<Category>, c: Category)
    ensures BoostedShares(cs)[c]
            == (DefaultVariableWeights[c] + FocusBoost * Occurrences(cs, c) as real)
               / (1.0 + FocusBoost * |cs| as real)
  {
    DefaultWeightsFacts();
    BoostedShareOf(DefaultVariableWeights, VariableCategories, cs, c);
  }

  /** The same for any complete weight table adding up to one. */
  lemma {:induction false} BoostedShareOf(w: map<Category, real>, keys: seq<Category>, cs: seq<Category>, c: Category)
    requires IsOrderOf(keys, w)
    requires forall k :: k in w
    requires Covers(w, keys) && SumOver(w, keys) == 1.0
    ensures Covers(BoostWeights(w, cs), keys)
    ensures SumOver(BoostWeights(w, cs), keys) == 1.0 + FocusBoost * |cs| as real
    ensures Normalize(BoostWeights(w, cs), keys)[c]
            == (w[c] + FocusBoost * Occurrences(cs, c) as real) / (1.0 + FocusBoost * |cs| as real)
  {
    BoostedTotal(w, keys, cs);
    BoostedWeight(w, cs, c);
  }

  /** Whatever is boosted, the six shares are positive and add up to one. */
  lemma BoostedSharesWellFormed(cs: seq<Category>)
    ensures forall c :: BoostedShares(cs)[c] > 0.0
    ensures Covers(BoostedShares(cs), VariableCategories)
    ensures SumOver(BoostedShares(cs), VariableCategories) == 1.0
  {
    DefaultWeightsFacts();
    BoostedWeightsNormalized(DefaultVariableWeights, VariableCategories, cs);
  }

  /** The same for any complete table of positive weights adding up to one. */
  lemma BoostedWeightsNormalized(w: map<Category, real>, keys: seq<Category>, cs: seq<Category>)
    requires IsOrderOf(keys, w)
    requires forall k :: k in w
    requires forall k :: w[k] > 0.0
    requires Covers(w, keys) && SumOver(w, keys) == 1.0
    ensures Covers(BoostWeights(w, cs), keys)
    ensures SumOver(BoostWeights(w, cs), keys) > 0.0
    ensures forall c :: Normalize(BoostWeights(w, cs), keys)[c] > 0.0
    ensures Covers(Normalize(BoostWeights(w, cs), keys), keys)
    ensures SumOver(Normalize(BoostWeights(w, cs), keys), keys) == 1.0
  {
    BoostedTotal(w, keys, cs);
    var b := BoostWeights(w, cs);
    NormalizeSumsToOne(b, keys);
    forall c ensures Normalize(b, keys)[c] > 0.0 {
      BoostedWeight(w, cs, c);
      DividePositive(b[c], SumOver(b, keys));
    }
  }

  /** The renormalised weights for a focus list. */
  function FocusWeights(focus: seq<string>): (w: map<Category, real>)
    ensures forall c :: c in w
  {
    BoostedShares(FocusCategories(focus))
  }

  /** A category's share for a focus list: its base weight plus a boost per
      entry equal to its key, over one plus a boost per entry naming any
      category. */
  lemma {:induction false} ShareFormula(focus: seq<string>, c: Category)
    ensures FocusWeights(focus)[c]
            == (DefaultVariableWeights[c] + FocusBoost * Occurrences(focus, Name(c)) as real)
               / (1.0 + FocusBoost * |FocusCategories(focus)| as real)
  {
    BoostedShareFormula(FocusCategories(focus), c);
    FocusCategoriesCount(focus, c);
  }

  /** `allocate_variable_budget`: every category gets its share of a positive
      remainder, rounded to cents; a remainder of zero or less gives zeros. */
  function AllocateVariableBudget(discretionary: real, focus: seq<string>): (r: map<Category, real>)
    ensures forall c :: c in r
    ensures discretionary <= 0.0 ==> forall c :: r[c] == 0.0
    ensures discretionary > 0.0 ==> forall c ::
              && r[c] >= 0.0
              && IsWholeCents(r[c])
              && -0.005 <= r[c] - discretionary * FocusWeights(focus)[c] <= 0.005
    ensures discretionary > 0.0 ==> forall c :: r[c] == RoundCents(discretionary * FocusWeights(focus)[c])
  {
    DefaultWeightsFacts();
    if discretionary <= 0.0 then Zeros(DefaultVariableWeights)
    else
      BoostedSharesWellFormed(FocusCategories(focus));
      RoundedShares(discretionary, FocusWeights(focus))
  }

  /** Every key mapped to zero. */
  function Zeros(w: map<Category, real>): (r: map<Category, real>)
    ensures r.Keys == w.Keys
    ensures forall c :: c in r ==> r[c] == 0.0
  {
    map c | c in w :: 0.0
  }

  /** Each share of `d`, rounded to cents. */
  function RoundedShares(d: real, w: map<Category, real>): (r: map<Category, real>)
    ensures r.Keys == w.Keys
    ensures forall c :: c in r ==> IsWholeCents(r[c]) && -0.005 <= r[c] - d * w[c] <= 0.005
    ensures d > 0.0 ==> forall c :: c in r && w[c] > 0.0 ==> r[c] >= 0.0
    ensures forall c :: c in r && (r[c] - d * w[c] == 0.005 || d * w[c] - r[c] == 0.005) ==>
              (r[c] * 100.0).Floor % 2 == 0
  {
    map c | c in w :: RoundCents(d * w[c])
  }

  // ---------------------------------------------------------------------
  // Properties of the allocation
  // ---------------------------------------------------------------------

  /** The rounded shares of `d` add up to `d` within half a cent per key. */
  lemma RoundedSharesTotal(d: real, w: map<Category, real>, keys: seq<Category>)
    requires Covers(w, keys) && SumOver(w, keys) == 1.0
    ensures Covers(RoundedShares(d, w), keys)
    ensures -0.005 * |keys| as real <= SumOver(RoundedShares(d, w), keys) - d <= 0.005 * |keys| as real
  {
    var exact := Times(w, d);
    var rounded := RoundedShares(d, w);
    SumOverTimes(w, keys, d);
    assert forall k :: k in rounded && k in exact ==> -0.005 <= rounded[k] - exact[k] <= 0.005;
    SumOverCloseEverywhere(rounded, exact, keys, 0.005);
  }

  /** A positive remainder is handed out in full, up to three cents of
      rounding over the six categories. */
  lemma AllocationTotal(discretionary: real, focus: seq<string>)
    requires discretionary > 0.0
    ensures Covers(AllocateVariableBudget(discretionary, focus), VariableCategories)
    ensures -0.03 <= SumOver(AllocateVariableBudget(discretionary, focus), VariableCategories) - discretionary <= 0.03
  {
    BoostedSharesWellFormed(FocusCategories(focus));
    RoundedSharesTotal(discretionary, FocusWeights(focus), VariableCategories);
  }

  /** Recognising focus entries commutes with concatenating focus lists. */
  lemma {:induction false} FocusCategoriesAppend(a: seq<string>, b: seq<string>)
    ensures FocusCategories(a + b) == FocusCategories(a) + FocusCategories(b)
  {
    if |a| > 0 {
      assert (a + b)[1..] == a[1..] + b;
      FocusCategoriesAppend(a[1..], b);
    } else {
      assert a + b == b;
    }
  }

  /** A focus entry naming no category changes nothing, wherever it stands. */
  lemma {:induction false} UnknownFocusIgnored(a: seq<string>, s: string, b: seq<string>, discretionary: real)
    requires CategoryNamed(s).None?
    ensures FocusWeights(a + [s] + b) == FocusWeights(a + b)
    ensures AllocateVariableBudget(discretionary, a + [s] + b) == AllocateVariableBudget(discretionary, a + b)
  {
    FocusCategoriesAppend(a + [s], b);
    FocusCategoriesAppend(a, [s]);
    FocusCategoriesAppend(a, b);
    assert FocusCategories([s]) == [] by {
      assert [s][1..] == [];
    }
    var cs := FocusCategories(a + b);
    assert FocusCategories(a + [s] + b) == cs;
    assert FocusWeights(a + [s] + b) == BoostedShares(cs);
    SameWeightsSameAllocation(discretionary, a + [s] + b, a + b);
  }

  /** The allocation depends on the focus list only through its weights. */
  lemma SameWeightsSameAllocation(discretionary: real, f1: seq<string>, f2: seq<string>)
    requires FocusWeights(f1) == FocusWeights(f2)
    ensures AllocateVariableBudget(discretionary, f1) == AllocateVariableBudget(discretionary, f2)
  {
  }

  /** A focus list naming no category gives the no-focus weights and
      allocation. */
  lemma {:induction false} UnrecognisedFocusIsNoFocus(focus: seq<string>, discretionary: real)
    requires forall i :: 0 <= i < |focus| ==> CategoryNamed(focus[i]).None?
    ensures FocusCategories(focus) == []
    ensures FocusWeights(focus) == FocusWeights([])
    ensures AllocateVariableBudget(discretionary, focus) == AllocateVariableBudget(discretionary, [])
  {
    if |focus| > 0 {
      assert CategoryNamed(focus[0]).None?;
      UnrecognisedFocusIsNoFocus(focus[1..], discretionary);
    }
  }

  /** With no focus the weights are the base weights. */
  lemma NoFocusIsBase()
    ensures forall c :: FocusWeights([])[c] == DefaultVariableWeights[c]
  {
    DefaultWeightsFacts();
    forall c ensures FocusWeights([])[c] == DefaultVariableWeights[c] {
      BoostedShareFormula([], c);
    }
  }

  /** One more mention of a category strictly raises its share, whatever was
      mentioned before: repeated entries stack. */
  lemma FocusEntryRaisesShare(focus: seq<string>, c: Category)
    ensures FocusWeights(focus + [Name(c)])[c] > FocusWeights(focus)[c]
  {
    var cs := FocusCategories(focus);
    FocusCategoriesAppend(focus, [Name(c)]);
    CategoryNamedName(c, Name(c));
    assert FocusCategories([Name(c)]) == [c] by {
      assert [Name(c)][1..] == [];
    }
    MentionRaisesShare(cs, c);
  }

  /** The same over recognised mentions. */
  lemma MentionRaisesShare(cs: seq<Category>, c: Category)
    ensures BoostedShares(cs + [c])[c] > BoostedShares(cs)[c]
  {
    BoostedShareFormula(cs, c);
    BoostedShareFormula(cs + [c], c);
    OccurrencesAppend(cs, c, c);
    OccurrencesBound(cs, c);
    WeightBounds(c);
    ShareRises(DefaultVariableWeights[c], Occurrences(cs, c), |cs|);
  }

  lemma WeightBounds(c: Category)
    ensures c in DefaultVariableWeights && 0.0 < DefaultVariableWeights[c] < 1.0
  {
    DefaultWeightsFacts();
  }

  /** The closed-form share rises with one more mention of its own
      category. */
  lemma ShareRises(base: real, o: nat, n: nat)
    requires 0.0 < base < 1.0 && o <= n
    ensures (base + FocusBoost * (o + 1) as real) / (1.0 + FocusBoost * (n + 1) as real)
            > (base + FocusBoost * o as real) / (1.0 + FocusBoost * n as real)
  {
    var x := base + FocusBoost * o as real;
    var t := 1.0 + FocusBoost * n as real;
    LessThanWithBoost(base, o, n);
    RatioRises(x, t, FocusBoost);
    assert x + FocusBoost == base + FocusBoost * (o + 1) as real;
    assert t + FocusBoost == 1.0 + FocusBoost * (n + 1) as real;
  }

  lemma LessThanWithBoost(base: real, o: nat, n: nat)
    requires base < 1.0 && o <= n
    ensures base + FocusBoost * o as real < 1.0 + FocusBoost * n as real
  {
  }

  /** A listed category can still end up with less than its no-focus share:
      when the other categories are listed too, the renormalisation takes
      back more than the boost gives. */
  lemma ListedShareCanFall()
    ensures FocusWeights(["Groceries", "Food Out", "Social", "Transport", "Misc"])[Groceries]
            < FocusWeights([])[Groceries]
  {
    var cs := [Groceries, FoodOut, Social, Transport, Misc];
    assert FocusCategories(["Groceries", "Food Out", "Social", "Transport", "Misc"]) == cs by {
      FocusCategoriesOfNames(cs);
    }
    FiveMentionsLowerGroceries(cs);
    NoFocusIsBase();
  }

  /** Groceries among five mentioned categories: 0.38 / 1.40 < 0.30. */
  lemma FiveMentionsLowerGroceries(cs: seq<Category>)
    requires cs == [Groceries, FoodOut, Social, Transport, Misc]
    ensures BoostedShares(cs)[Groceries] < DefaultVariableWeights[Groceries]
  {
    assert Occurrences(cs, Groceries) == 1 by {
      assert cs[1..] == [FoodOut, Social, Transport, Misc];
      assert Groceries !in cs[1..];
      OccurrencesAbsent(cs[1..], Groceries);
    }
    BoostedShareFormula(cs, Groceries);
    assert BoostedShares(cs)[Groceries] == 0.38 / 1.40;
  }

  /** The keys of a list of categories name exactly those categories. */
  lemma {:induction false} FocusCategoriesOfNames(cs: seq<Category>)
    ensures FocusCategories(NamesOf(cs)) == cs
  {
    if |cs| > 0 {
      CategoryNamedName(cs[0], Name(cs[0]));
      assert NamesOf(cs)[1..] == NamesOf(cs[1..]);
      FocusCategoriesOfNames(cs[1..]);
    }
  }

  /** The keys of a list of categories, in order. */
  function NamesOf(cs: seq<Category>): (r: seq<string>)
    ensures |r| == |cs|
    ensures forall i :: 0 <= i < |cs| ==> r[i] == Name(cs[i])
  {
    if |cs| == 0 then [] else [Name(cs[0])] + NamesOf(cs[1..])
  }

  /** Every mention is of one of the six categories. */
  lemma {:induction false} CountByCategory(cs: seq<Category>)
    ensures |cs| == Occurrences(cs, Groceries) + Occurrences(cs, FoodOut) + Occurrences(cs, Social)
                    + Occurrences(cs, Transport) + Occurrences(cs, Misc) + Occurrences(cs, InvestingExtra)
  {
    if |cs| > 0 {
      CountByCategory(cs[1..]);
      match cs[0]
      case Groceries =>
      case FoodOut =>
      case Social =>
      case Transport =>
      case Misc =>
      case InvestingExtra =>
    }
  }

  /** Only which entries the focus list holds matters, not their order. */
  lemma {:induction false} FocusOrderIrrelevant(f1: seq<string>, f2: seq<string>, discretionary: real)
    requires multiset(f1) == multiset(f2)
    ensures FocusWeights(f1) == FocusWeights(f2)
    ensures AllocateVariableBudget(discretionary, f1) == AllocateVariableBudget(discretionary, f2)
  {
    var c1 := FocusCategories(f1);
    var c2 := FocusCategories(f2);
    forall c ensures Occurrences(c1, c) == Occurrences(c2, c) {
      FocusCategoriesCount(f1, c);
      FocusCategoriesCount(f2, c);
      OccurrencesMultiset(f1, Name(c));
      OccurrencesMultiset(f2, Name(c));
    }
    CountByCategory(c1);
    CountByCategory(c2);
    forall c ensures BoostedShares(c1)[c] == BoostedShares(c2)[c] {
      BoostedShareFormula(c1, c);
      BoostedShareFormula(c2, c);
    }
    assert BoostedShares(c1) == BoostedShares(c2);
    SameWeightsSameAllocation(discretionary, f1, f2);
  }
}

=== FILE: dashboard.dfy ===
/** The pure pieces of the Streamlit page `app/main.py`: the `money`
    formatter, the focus-list parser, the discretionary remainder and its
    clamp, the `pct` helper, the budget-health interpretation, the donut
    buckets, the zero-width scrub of advice text, and the two pipelines
    (dashboard and advice payload) that chain them with the budget code. */
module Dashboard {
  import opened Results
  import opened Rounding
  import opened Sums
  import opened Arith
  import opened Text
  import opened Seqs
  import opened Budget

  // ---------------------------------------------------------------------
  // Money formatting
  // ---------------------------------------------------------------------

  function Abs(x: real): (a: real)
    ensures a >= 0.0 && (a == x || a == -x)
  {
    if x < 0.0 then -x else x
  }

  /** The whole number of cents the `.2f` conversion shows for `x`, sign
      aside: `|x|` rounded to cents, ties to even. */
  function ShownCents(x: real): (n: nat)
    ensures -0.5 <= n as real - Abs(x) * 100.0 <= 0.5
    ensures (n as real - Abs(x) * 100.0 == 0.5 || Abs(x) * 100.0 - n as real == 0.5) ==> n % 2 == 0
  {
    RoundHalfEven(Abs(x) * 100.0)
  }

  /** `money(x)`: a dollar sign, a minus sign for a negative amount, the
      whole dollars with a comma before every group of three digits, a
      point and exactly two digits of cents. */
  function Money(x: real): (s: string)
    ensures |s| >= 5 && s[0] == '$'
    ensures s[1] == '-' <==> x < 0.0
    ensures s[|s| - 3] == '.' && IsDigit(s[|s| - 2]) && IsDigit(s[|s| - 1])
  {
    var n := ShownCents(x);
    (if x < 0.0 then "$-" else "$") + Group(DigitsOf(n / 100)) + "." + TwoDigits(n % 100)
  }

  /** Between the sign and the point, `money` writes the whole dollars with
      a comma before each group of three digits: a comma exactly where the
      distance to the point is a multiple of four, digits everywhere else,
      and a digit first. */
  lemma MoneyGrouping(x: real)
    ensures var s := Money(x);
            var start := if x < 0.0 then 2 else 1;
            && start < |s| - 3
            && IsDigit(s[start])
            && (s[start] != '0' || start == |s| - 4)
            && forall i :: start <= i < |s| - 3 ==>
                 (IsDigit(s[i]) || s[i] == ',') && (s[i] == ',' <==> (|s| - 3 - i) % 4 == 0)
  {
    var n := ShownCents(x);
    var sign := if x < 0.0 then "$-" else "$";
    var ds := DigitsOf(n / 100);
    var g := Group(ds);
    GroupShape(ds);
    GroupFirst(ds);
    var tail := "." + TwoDigits(n % 100);
    assert Money(x) == sign + g + tail;
    FramedGroup(sign, g, tail);
  }

  /** The grouping facts about `g`, read at their offset inside
      `sign + g + tail`. */
  lemma FramedGroup(sign: string, g: string, tail: string)
    requires |g| > 0 && GroupedShape(g) && IsDigit(g[0]) && (g[0] != '0' || |g| == 1)
    requires |tail| == 3
    ensures var s := sign + g + tail;
            var start := |sign|;
            && start < |s| - 3
            && IsDigit(s[start])
            && (s[start] != '0' || start == |s| - 4)
            && forall i :: start <= i < |s| - 3 ==>
                 (IsDigit(s[i]) || s[i] == ',') && (s[i] == ',' <==> (|s| - 3 - i) % 4 == 0)
  {
    var s := sign + g + tail;
    forall i | |sign| <= i < |s| - 3
      ensures s[i] == g[i - |sign|]
    {
    }
  }

  /** The sign and the cents that a rendered amount shows. */
  datatype ShownAmount = ShownAmount(negative: bool, cents: nat)

  /** Reads back an amount in the format `Money` writes; `None` for text
      that is not in that format. */
  function ParseMoney(s: string): (r: Option<ShownAmount>)
  {
    if |s| < 5 || s[0] != '$' then None
    else if s[1] == '-' then ParseUnsigned(true, s[2..])
    else ParseUnsigned(false, s[1..])
  }

  /** The amount after the sign: grouped whole dollars, a point, cents. */
  function ParseUnsigned(negative: bool, body: string): (r: Option<ShownAmount>)
  {
    if |body| < 4 || body[|body| - 3] != '.' then None
    else ShownOf(negative, RemoveChar(body[..|body| - 3], ','), body[|body| - 2..])
  }

  function ShownOf(negative: bool, whole: string, frac: string): (r: Option<ShownAmount>)
  {
    if |whole| == 0 || !AllDigits(whole) || !AllDigits(frac) then None
    else Some(ShownAmount(negative, ValueOf(whole) * 100 + ValueOf(frac)))
  }

  /** What `money` shows is the amount rounded to cents, with its sign:
      reading the text back recovers both. */
  lemma MoneyRoundTrip(x: real)
    ensures ParseMoney(Money(x)) == Some(ShownAmount(x < 0.0, ShownCents(x)))
  {
    var n := ShownCents(x);
    var ds := DigitsOf(n / 100);
    ParseRendered(x < 0.0, ds, TwoDigits(n % 100));
    ValueOfDigitsOf(n / 100);
  }

  /** Reading back a sign, grouped digits, a point and two digits. */
  lemma ParseRendered(negative: bool, ds: string, f: string)
    requires |ds| > 0 && AllDigits(ds) && |f| == 2 && AllDigits(f)
    ensures ParseMoney((if negative then "$-" else "$") + Group(ds) + "." + f)
            == Some(ShownAmount(negative, ValueOf(ds) * 100 + ValueOf(f)))
  {
    var g := Group(ds);
    var body := g + "." + f;
    assert (if negative then "$-" else "$") + g + "." + f == (if negative then "$-" else "$") + body;
    ParseSign(negative, body);
    ParsePoint(negative, g, f);
    UngroupGroup(ds);
    ShownOfDigits(negative, ds, f);
  }

  lemma ShownOfDigits(negative: bool, whole: string, frac: string)
    requires |whole| > 0 && AllDigits(whole) && AllDigits(frac)
    ensures ShownOf(negative, whole, frac) == Some(ShownAmount(negative, ValueOf(whole) * 100 + ValueOf(frac)))
  {
  }

  /** The sign is read off the front; the rest starts with a digit. */
  lemma ParseSign(negative: bool, body: string)
    requires |body| >= 4 && IsDigit(body[0])
    ensures ParseMoney((if negative then "$-" else "$") + body) == ParseUnsigned(negative, body)
  {
    var s := (if negative then "$-" else "$") + body;
    assert s[0] == '$';
    if negative {
      assert s[1] == '-' && s[2..] == body;
    } else {
      assert s[1] == body[0] && s[1..] == body;
    }
  }

  /** The point splits the whole dollars from the cents. */
  lemma ParsePoint(negative: bool, g: string, f: string)
    requires |f| == 2
    ensures ParseUnsigned(negative, g + "." + f) == ShownOf(negative, RemoveChar(g, ','), f)
  {
    var body := g + "." + f;
    assert body[|body| - 3] == '.';
    assert body[..|body| - 3] == g;
    assert body[|body| - 2..] == f;
  }

  // ---------------------------------------------------------------------
  // Focus list parsing
  // ---------------------------------------------------------------------

  /** The stripped pieces that are not empty, in order. */
  function FocusEntries(pieces: seq<string>): (r: seq<string>)
    ensures |r| <= |pieces|
    ensures forall i :: 0 <= i < |r| ==> |r[i]| > 0 && IsStripped(r[i])
  {
    if |pieces| == 0 then [] else FocusHead(pieces[0]) + FocusEntries(pieces[1..])
  }

  /** What one piece contributes: its strip, unless that is empty. */
  function FocusHead(piece: string): (h: seq<string>)
    ensures |h| <= 1
    ensures forall i :: 0 <= i < |h| ==> |h[i]| > 0 && IsStripped(h[i])
  {
    var t := Strip(piece);
    if t == [] then [] else [t]
  }

  /** One step of `FocusEntries`, with the head's contribution named. */
  lemma FocusEntriesUnfold(x: seq<string>, h: seq<string>, tail: seq<string>)
    requires |x| > 0 && h == FocusHead(x[0]) && tail == FocusEntries(x[1..])
    ensures FocusEntries(x) == h + tail
  {
  }

  /** Filtering and stripping distributes over concatenation. */
  lemma {:induction false} FocusEntriesAppend(a: seq<string>, b: seq<string>)
    ensures FocusEntries(a + b) == FocusEntries(a) + FocusEntries(b)
  {
    if |a| > 0 {
      var h := FocusHead(a[0]);
      AppendTail(a, b);
      FocusEntriesUnfold(a + b, h, FocusEntries(a[1..] + b));
      FocusEntriesAppend(a[1..], b);
      FocusEntriesUnfold(a, h, FocusEntries(a[1..]));
      Associate(h, FocusEntries(a[1..]), FocusEntries(b));
    } else {
      assert a + b == b;
    }
  }

  /** Pieces without a comma stay without one. */
  lemma {:induction false} FocusEntriesNoComma(pieces: seq<string>)
    requires forall i :: 0 <= i < |pieces| ==> ',' !in pieces[i]
    ensures forall i :: 0 <= i < |FocusEntries(pieces)| ==> ',' !in FocusEntries(pieces)[i]
  {
    if |pieces| > 0 {
      FocusEntriesNoComma(pieces[1..]);
      if ',' in Strip(pieces[0]) {
        StripSubset(pieces[0], ',');
      }
    }
  }

  /** The focus list stored in the profile, as the page reads it: every
      entry stripped, non-empty and free of commas. */
  function ParseFocus(text: string): (r: seq<string>)
    ensures forall i :: 0 <= i < |r| ==> |r[i]| > 0 && IsStripped(r[i]) && ',' !in r[i]
  {
    FocusEntriesNoComma(Split(text, ','));
    FocusEntries(Split(text, ','))
  }

  /** Order is kept: the entries of two lists joined by a comma are the
      entries of the first followed by those of the second. */
  lemma ParseFocusAppend(a: string, b: string)
    ensures ParseFocus(a + "," + b) == ParseFocus(a) + ParseFocus(b)
  {
    SplitAppend(a, b, ',');
    FocusEntriesAppend(Split(a, ','), Split(b, ','));
  }

  /** Entries that are stripped, non-empty and comma-free survive a
      join-then-parse unchanged; no entries is the empty text. */
  lemma ParseFocusJoin(entries: seq<string>)
    requires forall i :: 0 <= i < |entries| ==> |entries[i]| > 0 && IsStripped(entries[i]) && ',' !in entries[i]
    ensures ParseFocus(Join(entries, ',')) == entries
  {
    if |entries| == 0 {
      assert Split([], ',') == [[]];
      assert Strip([]) == [];
    } else {
      SplitJoin(entries, ',');
      FocusEntriesKeeps(entries);
    }
  }

  /** Entries that are already stripped and non-empty pass through. */
  lemma FocusEntriesKeeps(entries: seq<string>)
    requires forall i :: 0 <= i < |entries| ==> |entries[i]| > 0 && IsStripped(entries[i])
    ensures FocusEntries(entries) == entries
  {
    forall i | 0 <= i < |entries|
      ensures Strip(entries[i]) == entries[i]
    {
      StripStripped(entries[i]);
    }
    FocusEntriesStrips(entries, entries);
  }

  /** Each piece whose strip is non-empty contributes exactly that strip. */
  lemma {:induction false} FocusEntriesStrips(pieces: seq<string>, entries: seq<string>)
    requires |pieces| == |entries|
    requires forall i :: 0 <= i < |pieces| ==> Strip(pieces[i]) == entries[i] && |entries[i]| > 0
    ensures FocusEntries(pieces) == entries
  {
    if |pieces| > 0 {
      FocusEntriesStrips(pieces[1..], entries[1..]);
      assert entries == [entries[0]] + entries[1..];
    }
  }

  /** The pieces `left[i] + entries[i] + right[i]`. */
  function Padded(left: seq<string>, entries: seq<string>, right: seq<string>): (r: seq<string>)
    requires |left| == |entries| == |right|
    ensures |r| == |entries|
    ensures forall i :: 0 <= i < |r| ==> r[i] == left[i] + entries[i] + right[i]
  {
    if |entries| == 0 then []
    else [left[0] + entries[0] + right[0]] + Padded(left[1..], entries[1..], right[1..])
  }

  /** Whitespace around the entries is dropped: entries that are stripped,
      non-empty and comma-free, each typed with any whitespace before and
      after it, read back as the entries themselves. */
  lemma ParseFocusPadded(left: seq<string>, entries: seq<string>, right: seq<string>)
    requires |left| == |entries| == |right|
    requires forall i :: 0 <= i < |entries| ==> |entries[i]| > 0 && IsStripped(entries[i]) && ',' !in entries[i]
    requires forall i :: 0 <= i < |entries| ==> AllSpace(left[i]) && AllSpace(right[i])
    ensures ParseFocus(Join(Padded(left, entries, right), ',')) == entries
  {
    var pieces := Padded(left, entries, right);
    if |entries| == 0 {
      assert Split([], ',') == [[]];
      assert Strip([]) == [];
    } else {
      forall i | 0 <= i < |pieces|
        ensures ',' !in pieces[i] && Strip(pieces[i]) == entries[i]
      {
        StripPadding(left[i], entries[i], right[i]);
        NoCommaInSpace(left[i]);
        NoCommaInSpace(right[i]);
      }
      SplitJoin(pieces, ',');
      FocusEntriesStrips(pieces, entries);
    }
  }

  lemma NoCommaInSpace(s: string)
    requires AllSpace(s)
    ensures ',' !in s
  {
    forall i | 0 <= i < |s|
      ensures s[i] != ','
    {
      assert IsSpace(s[i]);
    }
  }

  /** Text typed like the page's default focus list, two entries with a
      comma and some whitespace between them ("Groceries, Social"), reads as
      those two entries. */
  lemma TwoEntriesCommaSpace(a: string, gap: string, b: string)
    requires |a| > 0 && IsStripped(a) && ',' !in a
    requires |b| > 0 && IsStripped(b) && ',' !in b
    requires AllSpace(gap)
    ensures ParseFocus(a + [','] + gap + b) == [a, b]
  {
    var left := [[], gap];
    var entries := [a, b];
    var right := [[], []];
    var pieces := Padded(left, entries, right);
    assert |pieces| == 2;
    PadNothing(left[0], a, right[0]);
    assert pieces[0] == a;
    PadNothing([], gap + b, right[1]);
    assert pieces[1] == gap + b;
    JoinTwo(pieces, ',');
    Regroup(a, [','], gap, b);
    assert Join(pieces, ',') == a + [','] + gap + b;
    ParseFocusPadded(left, entries, right);
  }

  /** Text of only whitespace, the empty text included, gives no entries. */
  lemma BlankParsesEmpty(s: string)
    requires AllSpace(s)
    ensures ParseFocus(s) == []
  {
    NoCommaInSpace(s);
    SplitNoSep(s, ',');
    StripSpec(s);
  }

  /** A blank piece after a comma adds nothing: "Social, " reads as
      "Social" does. */
  lemma TrailingBlankIgnored(a: string, gap: string)
    requires AllSpace(gap)
    ensures ParseFocus(a + [','] + gap) == ParseFocus(a)
  {
    ParseFocusAppend(a, gap);
    BlankParsesEmpty(gap);
  }

  /** Parsing a rendered focus list again changes nothing. */
  lemma ParseFocusIdempotent(text: string)
    ensures ParseFocus(Join(ParseFocus(text), ',')) == ParseFocus(text)
  {
    ParseFocusJoin(ParseFocus(text));
  }

  // ---------------------------------------------------------------------
  // Discretionary remainder, clamp and percentages
  // ---------------------------------------------------------------------

  /** What is left after fixed costs and savings, rounded to the cent. */
  function Discretionary(income: real, fixed: real, savings: real): (d: real)
    ensures IsWholeCents(d)
    ensures -0.005 <= d - (income - fixed - savings) <= 0.005
    ensures d < 0.0 ==> fixed + savings > income
    ensures fixed + savings <= income ==> d >= 0.0
    ensures (d - (income - fixed - savings) == 0.005 || (income - fixed - savings) - d == 0.005)
              ==> (d * 100.0).Floor % 2 == 0
  {
    var exact := income - fixed - savings;
    var d := RoundCents(exact);
    if d < 0.0 then RoundCentsNegative(exact); d else d
  }

  /** The dashboard rounds the remainder a second time; that changes
      nothing. */
  lemma RoundingTwiceIsOnce(income: real, fixed: real, savings: real)
    ensures RoundCents(Discretionary(income, fixed, savings)) == Discretionary(income, fixed, savings)
  {
    RoundCentsIdempotent(income - fixed - savings);
  }

  /** The remainder clamped at zero: what the allocator is handed. */
  function AllocationInput(discretionary: real): (a: real)
    ensures a >= 0.0
    ensures discretionary >= 0.0 ==> a == discretionary
    ensures discretionary <= 0.0 ==> a == 0.0
  {
    Max(discretionary, 0.0)
  }

  /** `pct(n, d)`: `n` as a percentage of `d`, zero when `d` is not
      positive. */
  function Pct(n: real, d: real): (p: real)
    ensures d <= 0.0 ==> p == 0.0
    ensures d > 0.0 ==> p * d == n * 100.0
  {
    if d <= 0.0 then 0.0 else (n / d) * 100.0
  }

  /** A percentage passes a threshold exactly when the part passes that
      fraction of the whole. */
  lemma PctAbove(n: real, d: real, bound: real)
    requires d > 0.0
    ensures Pct(n, d) > bound <==> n * 100.0 > bound * d
  {
    DivideAbove(n * 100.0, d, bound);
    assert n / d * 100.0 == (n * 100.0) / d;
  }

  /** The page's fixed share and the one the warnings use agree whenever
      there is income. */
  lemma PctIsFixedPct(income: real, fixed: real)
    requires income > 0.0
    ensures Pct(fixed, income) == FixedPct(income, fixed)
  {
  }

  // ---------------------------------------------------------------------
  // Budget health
  // ---------------------------------------------------------------------

  /** The four outcomes of the quick interpretation. */
  datatype Health = Infeasible | FixedVeryHigh | RentHigh | Feasible

  /** The quick interpretation: shown only with income, and then exactly one
      outcome, the first that applies of a negative remainder, fixed costs
      over 60% of income, rent over 40% of income, and feasible. */
  function Interpret(income: real, fixed: real, rent: real, discretionary: real): (h: Option<Health>)
    ensures h.None? <==> income <= 0.0
    ensures h == Some(Infeasible) <==> income > 0.0 && discretionary < 0.0
    ensures h == Some(FixedVeryHigh) <==>
              income > 0.0 && discretionary >= 0.0 && fixed * 100.0 > 60.0 * income
    ensures h == Some(RentHigh) <==>
              income > 0.0 && discretionary >= 0.0 && fixed * 100.0 <= 60.0 * income
              && rent * 100.0 > 40.0 * income
    ensures h == Some(Feasible) <==>
              income > 0.0 && discretionary >= 0.0 && fixed * 100.0 <= 60.0 * income
              && rent * 100.0 <= 40.0 * income
  {
    if income > 0.0 then
      PctAbove(fixed, income, 60.0);
      PctAbove(rent, income, 40.0);
      Some(
        if discretionary < 0.0 then Infeasible
        else if Pct(fixed, income) > 60.0 then FixedVeryHigh
        else if Pct(rent, income) > 40.0 then RentHigh
        else Feasible)
    else None
  }

  /** "Not feasible" on the page comes with a shortfall warning, and "fixed
      costs very high" with the high-fixed warning. */
  lemma HealthAgreesWithWarnings(income: real, fixed: real, rent: real, savings: real)
    ensures Interpret(income, fixed, rent, Discretionary(income, fixed, savings)) == Some(Infeasible) ==>
              var w := Warnings(income, fixed, savings);
              |w| > 0 && w[|w| - 1].Shortfall?
    ensures Interpret(income, fixed, rent, Discretionary(income, fixed, savings)) == Some(FixedVeryHigh) ==>
              var w := Warnings(income, fixed, savings);
              |w| > 0 && w[0].HighFixed?
  {
  }

  /** The converse fails: a shortfall under half a cent rounds the
      remainder to zero, so the page reports a feasible budget while the
      warnings list a shortfall. */
  lemma TinyShortfallLooksFeasible()
    ensures Interpret(1000.0, 500.004, 0.0, Discretionary(1000.0, 500.004, 500.0)) == Some(Feasible)
    ensures Warnings(1000.0, 500.004, 500.0) == [WatchFixed(50.0004), Shortfall(0.004)]
  {
    var d := Discretionary(1000.0, 500.004, 500.0);
    assert -0.005 <= d + 0.004 <= 0.005;
    assert IsWholeCents(d);
    assert d == 0.0 by {
      var m := (d * 100.0).Floor;
      assert m as real == d * 100.0;
    }
    assert FixedPct(1000.0, 500.004) == 50.0004;
  }

  // ---------------------------------------------------------------------
  // Donut chart
  // ---------------------------------------------------------------------

  /** The three slices of the donut. */
  datatype Donut = Donut(fixed: real, savings: real, discretionary: real)

  /** The donut's slices: fixed costs, savings, and the remainder clamped
      at zero. */
  function DonutBuckets(fixed: real, savings: real, discretionary: real): (b: Donut)
    ensures b.discretionary >= 0.0
    ensures b.fixed == fixed && b.savings == savings
    ensures discretionary >= 0.0 ==> b.discretionary == discretionary
    ensures discretionary < 0.0 ==> b.discretionary == 0.0
  {
    Donut(fixed, savings, Max(discretionary, 0.0))
  }

  /** When income covers fixed costs and savings, the slices add up to the
      income within half a cent; otherwise the remainder slice is empty. */
  lemma DonutCoversIncome(income: real, fixed: real, savings: real)
    ensures var b := DonutBuckets(fixed, savings, Discretionary(income, fixed, savings));
            fixed + savings <= income ==> -0.005 <= b.fixed + b.savings + b.discretionary - income <= 0.005
    ensures var b := DonutBuckets(fixed, savings, Discretionary(income, fixed, savings));
            fixed + savings > income + 0.005 ==> b.discretionary == 0.0
  {
  }

  // ---------------------------------------------------------------------
  // Zero-width scrub of the advice text
  // ---------------------------------------------------------------------

  /** Zero-width space, non-joiner, joiner, and the byte-order mark. */
  predicate ZeroWidth(ch: char)
  {
    ch == '\U{200B}' || ch == '\U{200C}' || ch == '\U{200D}' || ch == '\U{FEFF}'
  }

  /** The four chained `replace(..., "")` calls. */
  function Scrub(advice: string): (r: string)
    ensures forall i :: 0 <= i < |r| ==> !ZeroWidth(r[i])
    ensures |r| <= |advice|
  {
    var a := RemoveChar(advice, '\U{200B}');
    var b := RemoveChar(a, '\U{200C}');
    var c := RemoveChar(b, '\U{200D}');
    RemoveCharSubset(a, '\U{200C}', '\U{200B}');
    RemoveCharSubset(b, '\U{200D}', '\U{200B}');
    RemoveCharSubset(b, '\U{200D}', '\U{200C}');
    var r := RemoveChar(c, '\U{FEFF}');
    RemoveCharSubset(c, '\U{FEFF}', '\U{200B}');
    RemoveCharSubset(c, '\U{FEFF}', '\U{200C}');
    RemoveCharSubset(c, '\U{FEFF}', '\U{200D}');
    r
  }

  /** The visible text in one pass: every character that is not zero-width,
      in order. */
  function Visible(s: string): string
  {
    if |s| == 0 then []
    else (if ZeroWidth(s[0]) then [] else [s[0]]) + Visible(s[1..])
  }

  /** Scrubbing works piece by piece. */
  lemma ScrubAppend(a: string, b: string)
    ensures Scrub(a + b) == Scrub(a) + Scrub(b)
  {
    RemoveCharAppend(a, b, '\U{200B}');
    var a1 := RemoveChar(a, '\U{200B}');
    var b1 := RemoveChar(b, '\U{200B}');
    RemoveCharAppend(a1, b1, '\U{200C}');
    var a2 := RemoveChar(a1, '\U{200C}');
    var b2 := RemoveChar(b1, '\U{200C}');
    RemoveCharAppend(a2, b2, '\U{200D}');
    var a3 := RemoveChar(a2, '\U{200D}');
    var b3 := RemoveChar(b2, '\U{200D}');
    RemoveCharAppend(a3, b3, '\U{FEFF}');
  }

  /** Scrubbing removes exactly the zero-width characters and keeps every
      other character in order. */
  lemma {:induction false} ScrubIsVisible(s: string)
    ensures Scrub(s) == Visible(s)
  {
    if |s| > 0 {
      assert s == [s[0]] + s[1..];
      ScrubAppend([s[0]], s[1..]);
      ScrubIsVisible(s[1..]);
      ScrubOne(s[0]);
    }
  }

  /** One character survives the scrub exactly when it is visible. */
  lemma ScrubOne(ch: char)
    ensures Scrub([ch]) == if ZeroWidth(ch) then [] else [ch]
  {
    if !ZeroWidth(ch) {
      assert RemoveChar([ch], '\U{200B}') == [ch];
    }
  }

  /** Scrubbed text has nothing left to scrub. */
  lemma ScrubIdempotent(s: string)
    ensures Scrub(Scrub(s)) == Scrub(s)
  {
    var r := Scrub(s);
    assert '\U{200B}' !in r && '\U{200C}' !in r && '\U{200D}' !in r && '\U{FEFF}' !in r;
  }

  // ---------------------------------------------------------------------
  // The two pages that chain the budget code
  // ---------------------------------------------------------------------

  /** The stored profile fields the pages read. */
  datatype Profile = Profile(goalType: string, goalValue: real, focusText: string)

  /** No stored profile reads as an amount goal of zero and no focus. */
  function ProfileOrDefault(p: Option<Profile>): (r: Profile)
    ensures p.Some? ==> r == p.value
    ensures p.None? ==> r.goalType == "amount" && r.goalValue == 0.0 && r.focusText == ""
    ensures p.None? ==> ParseFocus(r.focusText) == []
  {
    assert Split([], ',') == [[]];
    assert Strip([]) == [];
    if p.Some? then p.value else Profile("amount", 0.0, "")
  }

  /** The numbers both pages compute and the advice payload carries. */
  datatype Plan = Plan(
    income: real,
    fixed: ExpenseSummary,
    savings: real,
    discretionary: real,
    focus: seq<string>,
    allocation: map<Category, real>,
    warnings: seq<Warning>)

  /** The shared tail of both pages once income, fixed costs and savings
      are known. */
  function PlanFor(income: real, fixed: ExpenseSummary, savings: real, discretionary: real, focusText: string): (r: Plan)
    requires IsWholeCents(discretionary)
    ensures forall c :: c in r.allocation
    ensures forall c :: r.allocation[c] >= 0.0 && IsWholeCents(r.allocation[c])
    ensures r.discretionary <= 0.0 ==> forall c :: r.allocation[c] == 0.0
    ensures forall i :: 0 <= i < |r.focus| ==> |r.focus[i]| > 0 && IsStripped(r.focus[i])
    ensures income <= 0.0 ==> r.warnings == [NoIncome]
    ensures r.income == income && r.fixed == fixed && r.savings == savings && r.discretionary == discretionary
    ensures r.focus == ParseFocus(focusText)
    ensures r.warnings == Warnings(income, fixed.total, savings)
    ensures r.allocation == AllocateVariableBudget(AllocationInput(discretionary), r.focus)
  {
    var focus := ParseFocus(focusText);
    var a := AllocationInput(discretionary);
    Plan(income, fixed, savings, discretionary, focus,
         AllocateVariableBudget(a, focus), Warnings(income, fixed.total, savings))
  }

  /** A positive remainder is handed out in full, to within three cents, and
      each category gets its boosted share of it to within half a cent. */
  lemma {:induction false} PlanHandsOutRemainder(income: real, fixed: ExpenseSummary, savings: real, discretionary: real, focusText: string)
    requires IsWholeCents(discretionary) && discretionary > 0.0
    ensures Covers(PlanFor(income, fixed, savings, discretionary, focusText).allocation, VariableCategories)
    ensures -0.03 <= SumOver(PlanFor(income, fixed, savings, discretionary, focusText).allocation, VariableCategories)
                     - discretionary <= 0.03
    ensures forall c :: -0.005 <= PlanFor(income, fixed, savings, discretionary, focusText).allocation[c]
                                  - discretionary * FocusWeights(ParseFocus(focusText))[c] <= 0.005
  {
    var focus := ParseFocus(focusText);
    var alloc := PlanFor(income, fixed, savings, discretionary, focusText).allocation;
    assert alloc == AllocateVariableBudget(discretionary, focus);
    AllocationTotal(discretionary, focus);
  }

  /** What both pages read from the stored records before they diverge:
      monthly income, the fixed-cost summary and the profile's savings
      target. */
  datatype PageInputs = PageInputs(income: real, fixed: ExpenseSummary, target: real)

  /** The chain of budget calls both pages start with, failing with the
      first `ValueError` it meets: income first, then fixed costs, then the
      goal type. */
  function ReadInputs(incomes: seq<IncomeSource>, expenses: seq<FixedExpense>, profile: Option<Profile>): (r: Result<PageInputs, BudgetError>)
    ensures var p := ProfileOrDefault(profile);
            r.Ok? <==> IncomesValid(incomes) && ExpensesValid(expenses)
                       && (p.goalType == "amount" || p.goalType == "percent")
    ensures r.Err? ==>
              if !IncomesValid(incomes) then FirstInvalidIncome(incomes, r.error)
              else if !ExpensesValid(expenses) then FirstInvalidExpense(expenses, r.error)
              else r.error == InvalidGoalType(ProfileOrDefault(profile).goalType)
    ensures r.Ok? ==> r.value.target >= 0.0 && r.value.fixed.total == ExpenseTotal(expenses)
    ensures r.Ok? ==> var p := ProfileOrDefault(profile);
              && r.value.income == SummarizeIncome(incomes).value
              && r.value.fixed == SummarizeFixedExpenses(expenses).value
              && r.value.target == ComputeSavingsTarget(r.value.income, p.goalType, p.goalValue).value
  {
    var p := ProfileOrDefault(profile);
    match SummarizeIncome(incomes)
    case Err(e) => Err(e)
    case Ok(income) =>
      match SummarizeFixedExpenses(expenses)
      case Err(e) => Err(e)
      case Ok(fixed) =>
        match ComputeSavingsTarget(income, p.goalType, p.goalValue)
        case Err(e) => Err(e)
        case Ok(savings) => Ok(PageInputs(income, fixed, savings))
  }

  /** A percent goal asks for that percentage of the monthly income, and
      nothing when the product is negative. */
  lemma PercentGoalTarget(incomes: seq<IncomeSource>, expenses: seq<FixedExpense>, profile: Option<Profile>)
    requires ReadInputs(incomes, expenses, profile).Ok?
    requires ProfileOrDefault(profile).goalType == "percent"
    ensures var r := ReadInputs(incomes, expenses, profile).value;
            r.target * 100.0 == Max(r.income * ProfileOrDefault(profile).goalValue, 0.0)
  {
  }

  /** The advice page: the plan for the profile's own savings target. */
  function AdvicePlan(incomes: seq<IncomeSource>, expenses: seq<FixedExpense>, profile: Option<Profile>): (r: Result<Plan, BudgetError>)
    ensures r.Ok? <==> ReadInputs(incomes, expenses, profile).Ok?
    ensures r.Err? ==> r.error == ReadInputs(incomes, expenses, profile).error
    ensures r.Ok? ==> r.value.savings == ReadInputs(incomes, expenses, profile).value.target
    ensures r.Ok? ==> -0.005 <= r.value.discretionary - (r.value.income - r.value.fixed.total - r.value.savings) <= 0.005
    ensures r.Ok? ==> var x := ReadInputs(incomes, expenses, profile).value;
              && r.value.income == x.income
              && r.value.fixed == x.fixed
              && r.value.discretionary == Discretionary(x.income, x.fixed.total, x.target)
              && r.value.focus == ParseFocus(ProfileOrDefault(profile).focusText)
              && r.value.warnings == Warnings(x.income, x.fixed.total, x.target)
              && r.value.allocation == AllocateVariableBudget(AllocationInput(r.value.discretionary), r.value.focus)
  {
    match ReadInputs(incomes, expenses, profile)
    case Err(e) => Err(e)
    case Ok(x) =>
      Ok(PlanFor(x.income, x.fixed, x.target, Discretionary(x.income, x.fixed.total, x.target),
                 ProfileOrDefault(profile).focusText))
  }

  /** What the dashboard shows besides the plan. */
  datatype DashboardView = DashboardView(plan: Plan, health: Option<Health>, donut: Donut)

  /** The dashboard page: the savings figure is the what-if slider's whole
      number of dollars, the remainder is rounded twice, and the health
      reading and the donut come from the same numbers. The profile's own
      target is still computed, so a bad goal type fails the page. */
  function DashboardFor(incomes: seq<IncomeSource>, expenses: seq<FixedExpense>, profile: Option<Profile>, whatIf: nat)
    : (r: Result<DashboardView, BudgetError>)
    ensures r.Ok? <==> ReadInputs(incomes, expenses, profile).Ok?
    ensures r.Err? ==> r.error == ReadInputs(incomes, expenses, profile).error
    ensures r.Ok? ==> r.value.plan.savings == whatIf as real && r.value.donut.discretionary >= 0.0
  {
    match ReadInputs(incomes, expenses, profile)
    case Err(e) => Err(e)
    case Ok(x) =>
      var savings := whatIf as real;
      var d := Discretionary(x.income, x.fixed.total, savings);
      var d2 := RoundCents(d);
      RoundCentsWhole(d);
      var plan := PlanFor(x.income, x.fixed, savings, d2, ProfileOrDefault(profile).focusText);
      var rent := Get(x.fixed.byCategory, "Rent");
      Ok(DashboardView(plan, Interpret(x.income, x.fixed.total, rent, d2), DonutBuckets(x.fixed.total, savings, d2)))
  }

  /** With the slider left at the profile's target, the dashboard and the
      advice payload carry the same plan. */
  lemma DashboardMatchesAdvice(incomes: seq<IncomeSource>, expenses: seq<FixedExpense>, profile: Option<Profile>, whatIf: nat)
    requires AdvicePlan(incomes, expenses, profile).Ok?
    requires AdvicePlan(incomes, expenses, profile).value.savings == whatIf as real
    ensures DashboardFor(incomes, expenses, profile, whatIf).Ok?
    ensures DashboardFor(incomes, expenses, profile, whatIf).value.plan == AdvicePlan(incomes, expenses, profile).value
  {
    var x := ReadInputs(incomes, expenses, profile).value;
    RoundCentsWhole(Discretionary(x.income, x.fixed.total, whatIf as real));
  }

  /** The dashboard's second rounding is idle: its view is the plan for the
      once-rounded remainder at the slider's savings figure. */
  lemma DashboardOnceRounded(incomes: seq<IncomeSource>, expenses: seq<FixedExpense>, profile: Option<Profile>,
                             whatIf: nat, x: PageInputs)
    requires ReadInputs(incomes, expenses, profile) == Ok(x)
    ensures var d := Discretionary(x.income, x.fixed.total, whatIf as real);
            DashboardFor(incomes, expenses, profile, whatIf)
            == Ok(DashboardView(PlanFor(x.income, x.fixed, whatIf as real, d, ProfileOrDefault(profile).focusText),
                                Interpret(x.income, x.fixed.total, Get(x.fixed.byCategory, "Rent"), d),
                                DonutBuckets(x.fixed.total, whatIf as real, d)))
  {
    RoundCentsWhole(Discretionary(x.income, x.fixed.total, whatIf as real));
  }

  /** A monthly pay of 2000 with 600 of rent and a 300 savings goal: the
      records read as 2000 of income, 600 of fixed costs all under "Rent",
      and a target of 300, whatever the focus text. */
  lemma ScenarioInputs(focusText: string)
    ensures ReadInputs([IncomeSource("Job", 2000.0, "monthly")],
                       [FixedExpense("Rent", 600.0, "monthly", "Rent")],
                       Some(Profile("amount", 300.0, focusText)))
            == Ok(PageInputs(2000.0, ExpenseSummary(600.0, map["Rent" := 600.0]), 300.0))
  {
    var incomes := [IncomeSource("Job", 2000.0, "monthly")];
    var expenses := [FixedExpense("Rent", 600.0, "monthly", "Rent")];
    assert SummarizeIncome(incomes) == Ok(2000.0) by {
      assert incomes[1..] == [];
    }
    assert SummarizeFixedExpenses(expenses) == Ok(ExpenseSummary(600.0, map["Rent" := 600.0])) by {
      assert expenses[1..] == [];
      assert Accumulate(expenses, 0.0, map[]) == Accumulate([], 600.0, map["Rent" := 600.0]);
    }
  }

  /** The same household on the dashboard with the slider at 300 and any
      list of focus categories typed comma-separated: 1100 left to
      allocate, the list read back as typed, no warnings, and a feasible
      reading. */
  lemma Scenario(focus: seq<string>)
    requires forall i :: 0 <= i < |focus| ==> |focus[i]| > 0 && IsStripped(focus[i]) && ',' !in focus[i]
    ensures var r := DashboardFor([IncomeSource("Job", 2000.0, "monthly")],
                                  [FixedExpense("Rent", 600.0, "monthly", "Rent")],
                                  Some(Profile("amount", 300.0, Join(focus, ','))), 300);
            && r.Ok?
            && r.value.plan.discretionary == 1100.0
            && r.value.plan.focus == focus
            && r.value.plan.allocation == AllocateVariableBudget(1100.0, focus)
            && r.value.plan.warnings == []
            && r.value.health == Some(Feasible)
  {
    ScenarioInputs(Join(focus, ','));
    assert IsWholeCents(1100.0) by {
      assert (1100.0 * 100.0).Floor == 110000;
    }
    RoundCentsWhole(1100.0);
    assert Discretionary(2000.0, 600.0, 300.0) == 1100.0;
    assert Warnings(2000.0, 600.0, 300.0) == [];
    ParseFocusJoin(focus);
    var x := PageInputs(2000.0, ExpenseSummary(600.0, map["Rent" := 600.0]), 300.0);
    DashboardOnceRounded([IncomeSource("Job", 2000.0, "monthly")],
                         [FixedExpense("Rent", 600.0, "monthly", "Rent")],
                         Some(Profile("amount", 300.0, Join(focus, ','))), 300, x);
    assert Interpret(2000.0, 600.0, 600.0, 1100.0) == Some(Feasible);
  }

  /** With "Groceries" as the only focus entry, Groceries gets more of the
      1100 than its base 30% (330), and the six targets add up to 1100
      within three cents. */
  lemma ScenarioGroceries()
    ensures AllocateVariableBudget(1100.0, ["Groceries"])[Groceries] > 330.0
    ensures Covers(AllocateVariableBudget(1100.0, ["Groceries"]), VariableCategories)
    ensures -0.03 <= SumOver(AllocateVariableBudget(1100.0, ["Groceries"]), VariableCategories) - 1100.0 <= 0.03
  {
    FocusCategoriesOfNames([Groceries]);
    assert NamesOf([Groceries]) == ["Groceries"];
    ShareFormula(["Groceries"], Groceries);
    assert Occurrences(["Groceries"], Name(Groceries)) == 1;
    assert FocusWeights(["Groceries"])[Groceries] == 0.38 / 1.08;
    AllocationTotal(1100.0, ["Groceries"]);
  }
}

=== FILE: results.dfy ===
/** Failure-carrying values: the model's stand-in for Python's `None` results
    and raised `ValueError`s. */
module Results {

  /** A value that may be absent (a missing profile, an unparsable string). */
  datatype Option<+T> = None | Some(value: T)

  /** Either a computed value or the error the computation raised. */
  datatype Result<+T, +E> = Ok(value: T) | Err(error: E)
}

=== FILE: rounding.dfy ===
/** Exact-real counterparts of the float helpers the budget code leans on:
    `max`, and Python's `round(x, 2)`, which rounds half to even. */
module Rounding {

  function Max(a: real, b: real): (r: real)
    ensures r >= a && r >= b
    ensures r == a || r == b
  {
    if a >= b then a else b
  }

  /** Nearest integer to `y`; an exact tie goes to the even neighbour
      (Python 3's `round`). */
  function RoundHalfEven(y: real): (n: int)
    ensures -0.5 <= n as real - y <= 0.5
    ensures (n as real - y == 0.5 || y - n as real == 0.5) ==> n % 2 == 0
    ensures y >= 0.0 ==> n >= 0
    ensures y <= 0.0 ==> n <= 0
  {
    var f := y.Floor;
    var frac := y - f as real;
    if frac < 0.5 then f
    else if frac > 0.5 then f + 1
    else if f % 2 == 0 then f
    else f + 1
  }

  /** The contract of RoundHalfEven pins its result down: no other integer
      meets it. */
  lemma RoundHalfEvenUnique(y: real, m: int)
    requires -0.5 <= m as real - y <= 0.5
    requires (m as real - y == 0.5 || y - m as real == 0.5) ==> m % 2 == 0
    ensures m == RoundHalfEven(y)
  {
  }

  /** True when `x` is a whole number of cents. */
  predicate IsWholeCents(x: real)
  {
    (x * 100.0).Floor as real == x * 100.0
  }

  /** `round(x, 2)`: the multiple of 0.01 nearest to `x`, half-cent ties to the
      even cent. */
  function RoundCents(x: real): (r: real)
    ensures IsWholeCents(r)
    ensures -0.005 <= r - x <= 0.005
    ensures x >= 0.0 ==> r >= 0.0
    ensures x <= 0.0 ==> r <= 0.0
    ensures (r - x == 0.005 || x - r == 0.005) ==> (r * 100.0).Floor % 2 == 0
  {
    var n := RoundHalfEven(x * 100.0);
    var r := n as real / 100.0;
    assert r * 100.0 == n as real;
    assert (n as real).Floor == n;
    assert r - x == (n as real - x * 100.0) / 100.0;
    r
  }

  /** A half-cent tie between `n` and `n + 1` cents goes to the even one. */
  lemma RoundCentsTie(x: real, n: int)
    requires x * 100.0 == n as real + 0.5
    ensures RoundCents(x) * 100.0 == if n % 2 == 0 then n as real else n as real + 1.0
  {
    var m := RoundHalfEven(x * 100.0);
    assert x * 100.0 == n as real + 0.5;
    assert (x * 100.0).Floor == n;
    assert m as real / 100.0 * 100.0 == m as real;
  }

  /** A whole number of cents rounds to itself. */
  lemma RoundCentsWhole(x: real)
    requires IsWholeCents(x)
    ensures RoundCents(x) == x
  {
    var n := (x * 100.0).Floor;
    RoundHalfEvenUnique(x * 100.0, n);
  }

  /** Rounding an already-rounded amount again changes nothing. */
  lemma RoundCentsIdempotent(x: real)
    ensures RoundCents(RoundCents(x)) == RoundCents(x)
  {
    RoundCentsWhole(RoundCents(x));
  }

  /** A negative amount that rounds to a negative number of cents was below
      minus half a cent, so it was certainly negative before rounding. */
  lemma RoundCentsNegative(x: real)
    requires RoundCents(x) < 0.0
    ensures x < 0.0
  {
  }
}

=== FILE: seqs.dfy ===
/** Small facts about sequences, each stated once for any element type so
    that the proofs using them need not reason about what the elements
    are. */
module Seqs {

  lemma Associate<T>(x: seq<T>, y: seq<T>, z: seq<T>)
    ensures x + (y + z) == (x + y) + z
  {
  }

  /** The head and the tail of a concatenation whose first part is not
      empty. */
  lemma AppendTail<T>(a: seq<T>, b: seq<T>)
    requires |a| > 0
    ensures (a + b)[0] == a[0]
    ensures (a + b)[1..] == a[1..] + b
  {
  }

  /** Empty sequences on both sides change nothing. */
  lemma PadNothing<T>(l: seq<T>, x: seq<T>, r: seq<T>)
    requires l == [] && r == []
    ensures l + x + r == x
  {
  }

  lemma Regroup<T>(a: seq<T>, x: seq<T>, y: seq<T>, b: seq<T>)
    ensures a + x + (y + b) == a + x + y + b
  {
  }
}

=== FILE: sums.dfy ===
/** Sums of real-valued tables: the whole of a `map` (in no particular
    order), and the entries of a `map` visited in a given key order (the
    order a Python dict is iterated in). */
module Sums {

  /** `d.get(k, 0.0)`. */
  function Get<K>(m: map<K, real>, k: K): (v: real)
    ensures k in m ==> v == m[k]
    ensures k !in m ==> v == 0.0
  {
    if k in m then m[k] else 0.0
  }

  /** The sum of all values of `m`, independent of any iteration order. */
  ghost function MapSum<K>(m: map<K, real>): real
    decreases |m.Keys|
  {
    if m == map[] then 0.0
    else
      var k :| k in m;
      m[k] + MapSum(m - {k})
  }

  /** Whichever key is taken out first, the sum is the same. */
  lemma {:induction false} MapSumRemove<K>(m: map<K, real>, k: K)
    requires k in m
    ensures MapSum(m) == m[k] + MapSum(m - {k})
    decreases |m.Keys|
  {
    var j :| j in m && MapSum(m) == m[j] + MapSum(m - {j});
    if j != k {
      var mj := m - {j};
      var mk := m - {k};
      assert |mj.Keys| < |m.Keys| by { assert mj.Keys < m.Keys; }
      assert |mk.Keys| < |m.Keys| by { assert mk.Keys < m.Keys; }
      MapSumRemove(mj, k);
      MapSumRemove(mk, j);
      assert mj - {k} == mk - {j};
    }
  }

  /** Setting the value of one key changes the sum by the difference. */
  lemma MapSumUpdate<K>(m: map<K, real>, k: K, v: real)
    ensures MapSum(m[k := v]) == MapSum(m) - Get(m, k) + v
  {
    var m' := m[k := v];
    MapSumRemove(m', k);
    assert m' - {k} == m - {k};
    if k in m {
      MapSumRemove(m, k);
    } else {
      assert m - {k} == m;
    }
  }

  /** True when every key of `keys` is present in `w`. */
  predicate Covers<K>(w: map<K, real>, keys: seq<K>)
  {
    forall i :: 0 <= i < |keys| ==> keys[i] in w
  }

  /** `w[keys[0]] + w[keys[1]] + ...`, the values of `w` visited in the order
      given by `keys`. */
  function SumOver<K>(w: map<K, real>, keys: seq<K>): real
    requires Covers(w, keys)
  {
    if |keys| == 0 then 0.0 else w[keys[0]] + SumOver(w, keys[1..])
  }

  /** Every value of `w` divided by `t`. */
  function Divide<K>(w: map<K, real>, t: real): (r: map<K, real>)
    requires t != 0.0
    ensures r.Keys == w.Keys
    ensures forall k :: k in r ==> r[k] == w[k] / t
  {
    map k | k in w :: w[k] / t
  }

  /** Dividing every value divides the sum. */
  lemma {:induction false} SumOverDivide<K>(w: map<K, real>, keys: seq<K>, t: real)
    requires Covers(w, keys) && t != 0.0
    ensures Covers(Divide(w, t), keys)
    ensures SumOver(Divide(w, t), keys) == SumOver(w, keys) / t
  {
    if |keys| > 0 {
      SumOverDivide(w, keys[1..], t);
      DivideAdd(w[keys[0]], SumOver(w, keys[1..]), t);
    }
  }

  lemma DivideAdd(a: real, b: real, t: real)
    requires t != 0.0
    ensures a / t + b / t == (a + b) / t
  {
  }

  /** Every value of `w` multiplied by `c`. */
  function Times<K>(w: map<K, real>, c: real): (r: map<K, real>)
    ensures r.Keys == w.Keys
    ensures forall k :: k in r ==> r[k] == c * w[k]
  {
    map k | k in w :: c * w[k]
  }

  /** Multiplying every value multiplies the sum. */
  lemma {:induction false} SumOverTimes<K>(w: map<K, real>, keys: seq<K>, c: real)
    requires Covers(w, keys)
    ensures Covers(Times(w, c), keys)
    ensures SumOver(Times(w, c), keys) == c * SumOver(w, keys)
  {
    if |keys| > 0 {
      SumOverTimes(w, keys[1..], c);
    }
  }

  /** How many times `k` occurs in `keys`. */
  function Occurrences<K(==)>(keys: seq<K>, k: K): nat
  {
    if |keys| == 0 then 0
    else (if keys[0] == k then 1 else 0) + Occurrences(keys[1..], k)
  }

  /** Appending one key counts it once more. */
  lemma {:induction false} OccurrencesAppend<K>(keys: seq<K>, j: K, k: K)
    ensures Occurrences(keys + [j], k) == Occurrences(keys, k) + (if j == k then 1 else 0)
  {
    if |keys| > 0 {
      assert (keys + [j])[1..] == keys[1..] + [j];
      OccurrencesAppend(keys[1..], j, k);
    } else {
      assert (keys + [j])[1..] == [];
    }
  }

  /** A key that is not in the list occurs zero times. */
  lemma {:induction false} OccurrencesAbsent<K>(keys: seq<K>, k: K)
    requires k !in keys
    ensures Occurrences(keys, k) == 0
  {
    if |keys| > 0 {
      assert keys[0] != k;
      OccurrencesAbsent(keys[1..], k);
    }
  }

  /** A key occurs at most as often as there are keys. */
  lemma {:induction false} OccurrencesBound<K>(keys: seq<K>, k: K)
    ensures Occurrences(keys, k) <= |keys|
  {
    if |keys| > 0 {
      OccurrencesBound(keys[1..], k);
    }
  }

  /** `Occurrences` is the multiplicity in the multiset of the keys. */
  lemma {:induction false} OccurrencesMultiset<K>(keys: seq<K>, k: K)
    ensures Occurrences(keys, k) == multiset(keys)[k]
  {
    if |keys| > 0 {
      assert keys == [keys[0]] + keys[1..];
      assert multiset(keys) == multiset([keys[0]]) + multiset(keys[1..]);
      OccurrencesMultiset(keys[1..], k);
    }
  }

  /** No key occurs twice. */
  predicate Distinct<K(==)>(keys: seq<K>)
  {
    forall i, j :: 0 <= i < j < |keys| ==> keys[i] != keys[j]
  }

  /** `keys` lists every key of `w` exactly once: a dict together with its
      iteration order. */
  ghost predicate IsOrderOf<K(!new)>(keys: seq<K>, w: map<K, real>)
  {
    Distinct(keys) && forall k :: k in w <==> k in keys
  }

  /** Changing a value the order never visits leaves the sum alone. */
  lemma {:induction false} SumOverUnvisited<K>(w: map<K, real>, keys: seq<K>, k: K, v: real)
    requires Covers(w, keys) && k !in keys
    ensures Covers(w[k := v], keys)
    ensures SumOver(w[k := v], keys) == SumOver(w, keys)
  {
    if |keys| > 0 {
      SumOverUnvisited(w, keys[1..], k, v);
    }
  }

  /** Changing the value of a key the order visits once moves the sum by the
      change. */
  lemma {:induction false} SumOverUpdate<K>(w: map<K, real>, keys: seq<K>, k: K, v: real)
    requires Covers(w, keys) && Distinct(keys) && k in keys
    ensures Covers(w[k := v], keys)
    ensures SumOver(w[k := v], keys) == SumOver(w, keys) + (v - w[k])
  {
    var rest := keys[1..];
    assert Distinct(rest) by {
      forall i, j | 0 <= i < j < |rest| ensures rest[i] != rest[j] {
        assert rest[i] == keys[i + 1] && rest[j] == keys[j + 1];
      }
    }
    if keys[0] == k {
      assert k !in rest by {
        forall i | 0 <= i < |rest| ensures rest[i] != k {
          assert rest[i] == keys[i + 1];
        }
      }
      SumOverUnvisited(w, rest, k, v);
    } else {
      assert k in rest by {
        var i :| 0 <= i < |keys| && keys[i] == k;
        assert rest[i - 1] == k;
      }
      SumOverUpdate(w, rest, k, v);
    }
  }

  /** Two tables that agree within `eps` on every key have ordered sums that
      agree within `eps` per key visited. */
  lemma {:induction false} SumOverClose<K>(a: map<K, real>, b: map<K, real>, keys: seq<K>, eps: real)
    requires Covers(a, keys) && Covers(b, keys)
    requires forall i :: 0 <= i < |keys| ==> -eps <= a[keys[i]] - b[keys[i]] <= eps
    ensures -(eps * |keys| as real) <= SumOver(a, keys) - SumOver(b, keys) <= eps * |keys| as real
  {
    if |keys| > 0 {
      var rest := keys[1..];
      assert forall i :: 0 <= i < |rest| ==> rest[i] == keys[i + 1];
      SumOverClose(a, b, rest, eps);
      var head := a[keys[0]] - b[keys[0]];
      var tail := SumOver(a, rest) - SumOver(b, rest);
      var n := |keys| as real;
      var m := |rest| as real;
      assert SumOver(a, keys) - SumOver(b, keys) == head + tail;
      assert n == m + 1.0;
      AddBounds(head, tail, eps, m);
    } else {
      assert eps * 0.0 == 0.0;
    }
  }

  /** The same when the two tables agree within `eps` on every shared key. */
  lemma SumOverCloseEverywhere<K>(a: map<K, real>, b: map<K, real>, keys: seq<K>, eps: real)
    requires Covers(a, keys) && Covers(b, keys)
    requires forall k :: k in a && k in b ==> -eps <= a[k] - b[k] <= eps
    ensures -(eps * |keys| as real) <= SumOver(a, keys) - SumOver(b, keys) <= eps * |keys| as real
  {
    forall i | 0 <= i < |keys|
      ensures -eps <= a[keys[i]] - b[keys[i]] <= eps
    {
      assert keys[i] in a && keys[i] in b;
    }
    SumOverClose(a, b, keys, eps);
  }

  /** One more term within `eps` widens a bound of `eps * m` to
      `eps * (m + 1)`. */
  lemma AddBounds(head: real, tail: real, eps: real, m: real)
    requires -eps <= head <= eps
    requires -(eps * m) <= tail <= eps * m
    ensures -(eps * (m + 1.0)) <= head + tail <= eps * (m + 1.0)
  {
    assert eps * (m + 1.0) == eps * m + eps;
  }
}

=== FILE: text.dfy ===
/** The string handling the page does by hand: Python's `str.strip`,
    `str.split` on a single character, `str.replace(c, "")`, and the decimal
    digits and thousands commas of the `,` format option. */
module Text {
  import opened Seqs

  /** Python's `str.isspace` for one character: the Unicode characters of
      general category Zs or bidirectional class WS, B or S. */
  predicate IsSpace(ch: char)
  {
    || ('\t' <= ch <= '\r')
    || ('\U{1C}' <= ch <= '\U{1F}')
    || ch == ' '
    || ch == '\U{85}'
    || ch == '\U{A0}'
    || ch == '\U{1680}'
    || ('\U{2000}' <= ch <= '\U{200A}')
    || ch == '\U{2028}'
    || ch == '\U{2029}'
    || ch == '\U{202F}'
    || ch == '\U{205F}'
    || ch == '\U{3000}'
  }

  predicate AllSpace(s: string)
  {
    forall i :: 0 <= i < |s| ==> IsSpace(s[i])
  }

  /** Nothing to strip: empty, or neither end is whitespace. */
  predicate IsStripped(s: string)
  {
    |s| == 0 || (!IsSpace(s[0]) && !IsSpace(s[|s| - 1]))
  }

  /** `s` with its leading whitespace removed. */
  function TrimLeft(s: string): (r: string)
    ensures |r| <= |s| && r == s[|s| - |r|..]
    ensures AllSpace(s[..|s| - |r|])
    ensures |r| > 0 ==> !IsSpace(r[0])
  {
    if |s| > 0 && IsSpace(s[0]) then TrimLeft(s[1..]) else s
  }

  /** `s` with its trailing whitespace removed. */
  function TrimRight(s: string): (r: string)
    ensures |r| <= |s| && r == s[..|r|]
    ensures AllSpace(s[|r|..])
    ensures |r| > 0 ==> !IsSpace(r[|r| - 1])
  {
    if |s| > 0 && IsSpace(s[|s| - 1]) then TrimRight(s[..|s| - 1]) else s
  }

  /** `r` sits in `s` at offset `i` with only whitespace around it. */
  predicate Framed(s: string, i: int, r: string)
  {
    0 <= i && i + |r| <= |s| && s[i..i + |r|] == r && AllSpace(s[..i]) && AllSpace(s[i + |r|..])
  }

  /** `str.strip()`: `s` without leading and trailing whitespace. */
  function Strip(s: string): (r: string)
    ensures IsStripped(r)
  {
    TrimRight(TrimLeft(s))
  }

  /** What `Strip` keeps is the stretch of `s` that neither starts nor ends
      with whitespace, with only whitespace around it; nothing is kept
      exactly when `s` is all whitespace. */
  lemma StripSpec(s: string)
    ensures exists i :: Framed(s, i, Strip(s))
    ensures Strip(s) == [] <==> AllSpace(s)
  {
    var t := TrimLeft(s);
    var r := TrimRight(t);
    assert r == Strip(s);
    var i := |s| - |t|;
    assert s[i..i + |r|] == r by {
      assert t == s[i..];
    }
    assert AllSpace(s[i + |r|..]) by {
      assert s[i + |r|..] == t[|r|..];
    }
    assert Framed(s, i, r);
    assert r == [] ==> AllSpace(s) by {
      if r == [] {
        assert AllSpace(t);
        assert |t| == 0;
        assert s[..i] == s;
      }
    }
  }

  /** Stripping adds no character. */
  lemma StripSubset(s: string, ch: char)
    requires ch in Strip(s)
    ensures ch in s
  {
    var r := Strip(s);
    StripSpec(s);
    var i :| Framed(s, i, r);
    var k :| 0 <= k < |r| && r[k] == ch;
    SliceMember(s, i, i + |r|, k);
  }

  lemma SliceMember(s: string, i: int, j: int, k: int)
    requires 0 <= i <= j <= |s| && 0 <= k < j - i
    ensures s[i..j][k] in s
  {
    assert s[i..j][k] == s[i + k];
  }

  /** A string that needs no stripping is its own strip. */
  lemma StripStripped(s: string)
    requires IsStripped(s)
    ensures Strip(s) == s
  {
  }

  /** Stripping twice strips once. */
  lemma StripIdempotent(s: string)
    ensures Strip(Strip(s)) == Strip(s)
  {
    StripStripped(Strip(s));
  }

  /** Leading whitespace before a text that starts with a non-space goes. */
  lemma {:induction false} TrimLeftPadding(l: string, t: string)
    requires AllSpace(l) && |t| > 0 && !IsSpace(t[0])
    ensures TrimLeft(l + t) == t
  {
    if |l| > 0 {
      assert (l + t)[0] == l[0];
      assert (l + t)[1..] == l[1..] + t;
      TrimLeftPadding(l[1..], t);
    } else {
      assert l + t == t;
    }
  }

  /** Trailing whitespace after a text that ends with a non-space goes. */
  lemma {:induction false} TrimRightPadding(t: string, r: string)
    requires AllSpace(r) && |t| > 0 && !IsSpace(t[|t| - 1])
    ensures TrimRight(t + r) == t
  {
    if |r| > 0 {
      var tr := t + r;
      assert tr[|tr| - 1] == r[|r| - 1];
      assert tr[..|tr| - 1] == t + r[..|r| - 1];
      TrimRightPadding(t, r[..|r| - 1]);
    } else {
      assert t + r == t;
    }
  }

  /** Stripping a non-empty stripped text padded with whitespace on both
      sides gives back the text. */
  lemma StripPadding(l: string, e: string, r: string)
    requires AllSpace(l) && AllSpace(r) && |e| > 0 && IsStripped(e)
    ensures Strip(l + e + r) == e
  {
    assert l + e + r == l + (e + r);
    assert (e + r)[0] == e[0];
    TrimLeftPadding(l, e + r);
    TrimRightPadding(e, r);
  }

  /** `sep` joins the parts, Python's `sep.join(parts)`. */
  function Join(parts: seq<string>, sep: char): string
  {
    if |parts| == 0 then []
    else if |parts| == 1 then parts[0]
    else parts[0] + [sep] + Join(parts[1..], sep)
  }

  /** Two parts are joined with one separator between them. */
  lemma JoinTwo(parts: seq<string>, sep: char)
    requires |parts| == 2
    ensures Join(parts, sep) == parts[0] + [sep] + parts[1]
  {
    assert Join(parts[1..], sep) == parts[1];
  }

  /** `s.split(sep)` for a one-character separator: the pieces between
      separators, in order, empty ones included; never an empty list. */
  function Split(s: string, sep: char): (r: seq<string>)
    ensures |r| >= 1
    ensures forall i :: 0 <= i < |r| ==> sep !in r[i]
    ensures Join(r, sep) == s
  {
    if |s| == 0 then [[]]
    else
      var rest := Split(s[1..], sep);
      if s[0] == sep then
        assert Join([[]] + rest, sep) == [sep] + Join(rest, sep) by {
          assert ([[]] + rest)[1..] == rest;
        }
        assert s == [sep] + s[1..];
        [[]] + rest
      else
        var r := [[s[0]] + rest[0]] + rest[1..];
        assert Join(r, sep) == [s[0]] + Join(rest, sep) by {
          if |rest| > 1 {
            assert r[1..] == rest[1..];
          }
        }
        assert s == [s[0]] + s[1..];
        r
  }

  /** Splitting a joined list gives the list back, when no part contains the
      separator: `Split` and `Join` are inverse. */
  lemma {:induction false} SplitJoin(parts: seq<string>, sep: char)
    requires |parts| >= 1
    requires forall i :: 0 <= i < |parts| ==> sep !in parts[i]
    ensures Split(Join(parts, sep), sep) == parts
  {
    if |parts| == 1 {
      SplitNoSep(parts[0], sep);
    } else {
      var tail := parts[1..];
      SplitJoin(tail, sep);
      SplitPrefix(parts[0], Join(tail, sep), sep);
      assert parts == [parts[0]] + tail;
    }
  }

  /** Text without the separator is one piece. */
  lemma {:induction false} SplitNoSep(s: string, sep: char)
    requires sep !in s
    ensures Split(s, sep) == [s]
  {
    if |s| > 0 {
      SplitNoSep(s[1..], sep);
      assert s == [s[0]] + s[1..];
    }
  }

  /** A separator-free prefix becomes the first piece. */
  lemma {:induction false} SplitPrefix(a: string, b: string, sep: char)
    requires sep !in a
    ensures Split(a + [sep] + b, sep) == [a] + Split(b, sep)
  {
    if |a| == 0 {
      assert a + [sep] + b == [sep] + b;
      assert ([sep] + b)[1..] == b;
    } else {
      assert (a + [sep] + b)[1..] == a[1..] + [sep] + b;
      SplitPrefix(a[1..], b, sep);
      assert a == [a[0]] + a[1..];
    }
  }

  /** The pieces of two texts joined by a separator are the pieces of each,
      in order. */
  lemma {:induction false} SplitAppend(a: string, b: string, sep: char)
    ensures Split(a + [sep] + b, sep) == Split(a, sep) + Split(b, sep)
  {
    if |a| == 0 {
      assert a + [sep] + b == [sep] + b;
      assert ([sep] + b)[1..] == b;
    } else {
      assert (a + [sep] + b)[1..] == a[1..] + [sep] + b;
      SplitAppend(a[1..], b, sep);
    }
  }

  /** `s.replace(ch, "")`: `s` without any `ch`, everything else in order. */
  function RemoveChar(s: string, ch: char): (r: string)
    ensures ch !in r
    ensures |r| <= |s|
    ensures ch !in s ==> r == s
  {
    if |s| == 0 then []
    else (if s[0] == ch then [] else [s[0]]) + RemoveChar(s[1..], ch)
  }

  /** Every other character keeps its number of occurrences. */
  lemma {:induction false} RemoveCharKeepsOthers(s: string, ch: char, x: char)
    requires x != ch
    ensures multiset(RemoveChar(s, ch))[x] == multiset(s)[x]
  {
    if |s| > 0 {
      assert s == [s[0]] + s[1..];
      RemoveCharKeepsOthers(s[1..], ch, x);
    }
  }

  /** Removing a character adds no character. */
  lemma {:induction false} RemoveCharSubset(s: string, ch: char, x: char)
    requires x !in s
    ensures x !in RemoveChar(s, ch)
  {
    if |s| > 0 {
      RemoveCharSubset(s[1..], ch, x);
    }
  }

  /** Removing a character distributes over concatenation. */
  lemma {:induction false} RemoveCharAppend(a: string, b: string, ch: char)
    ensures RemoveChar(a + b, ch) == RemoveChar(a, ch) + RemoveChar(b, ch)
  {
    if |a| > 0 {
      var h := if a[0] == ch then [] else [a[0]];
      AppendTail(a, b);
      assert RemoveChar(a + b, ch) == h + RemoveChar(a[1..] + b, ch);
      RemoveCharAppend(a[1..], b, ch);
      assert RemoveChar(a, ch) == h + RemoveChar(a[1..], ch);
      Associate(h, RemoveChar(a[1..], ch), RemoveChar(b, ch));
    } else {
      assert a + b == b;
    }
  }

  // ---------------------------------------------------------------------
  // Decimal digits
  // ---------------------------------------------------------------------

  predicate IsDigit(ch: char)
  {
    '0' <= ch <= '9'
  }

  predicate AllDigits(s: string)
  {
    forall i :: 0 <= i < |s| ==> IsDigit(s[i])
  }

  function DigitChar(d: nat): (ch: char)
    requires d < 10
    ensures IsDigit(ch)
  {
    ['0', '1', '2', '3', '4', '5', '6', '7', '8', '9'][d]
  }

  function DigitValue(ch: char): (d: nat)
    requires IsDigit(ch)
    ensures d < 10 && DigitChar(d) == ch
  {
    (ch as int - '0' as int) as nat
  }

  /** The decimal numeral of `n`, without leading zeros. */
  function DigitsOf(n: nat): (s: string)
    ensures |s| >= 1 && AllDigits(s)
    ensures |s| > 1 ==> s[0] != '0'
    decreases n
  {
    if n < 10 then [DigitChar(n)] else DigitsOf(n / 10) + [DigitChar(n % 10)]
  }

  /** The number a string of digits spells. */
  function ValueOf(s: string): nat
    requires AllDigits(s)
  {
    if |s| == 0 then 0 else ValueOf(s[..|s| - 1]) * 10 + DigitValue(s[|s| - 1])
  }

  /** Reading a numeral gives back its number. */
  lemma {:induction false} ValueOfDigitsOf(n: nat)
    ensures ValueOf(DigitsOf(n)) == n
    decreases n
  {
    var s := DigitsOf(n);
    if n < 10 {
      DigitValueOfChar(n);
      assert s[..0] == [];
    } else {
      var q, d := n / 10, n % 10;
      ValueOfDigitsOf(q);
      DigitValueOfChar(d);
      assert s == DigitsOf(q) + [DigitChar(d)];
      assert s[..|s| - 1] == DigitsOf(q);
      assert ValueOf(s) == ValueOf(DigitsOf(q)) * 10 + DigitValue(DigitChar(d));
      assert q * 10 + d == n;
    }
  }

  lemma DigitValueOfChar(d: nat)
    requires d < 10
    ensures DigitValue(DigitChar(d)) == d
  {
  }

  /** Two-digit numeral, with a leading zero when needed: the cents of a
      `.2f` amount. */
  function TwoDigits(n: nat): (s: string)
    requires n < 100
    ensures |s| == 2 && AllDigits(s) && ValueOf(s) == n
  {
    var s := [DigitChar(n / 10), DigitChar(n % 10)];
    assert s[..1] == [DigitChar(n / 10)];
    assert ValueOf(s[..1]) == n / 10 by {
      assert s[..1][..0] == [];
    }
    s
  }

  /** Digits in groups of three from the right, separated by commas, the
      way the `,` format option writes the integer part. */
  function Group(ds: string): (r: string)
    requires |ds| > 0 && AllDigits(ds)
    ensures |r| > 0 && IsDigit(r[0]) && IsDigit(r[|r| - 1])
  {
    if |ds| <= 3 then ds else Group(ds[..|ds| - 3]) + [','] + ds[|ds| - 3..]
  }

  /** Digits with a comma exactly where the distance from the end is a
      multiple of four. */
  predicate GroupedShape(r: string)
  {
    forall i :: 0 <= i < |r| ==>
      (r[i] == ',' <==> (|r| - i) % 4 == 0) && (IsDigit(r[i]) || r[i] == ',')
  }

  /** One comma per full group of three below the leading group: a
      character is a comma exactly when its distance from the end is a
      multiple of four, and every other character is a digit. */
  lemma {:induction false} GroupShape(ds: string)
    requires |ds| > 0 && AllDigits(ds)
    ensures |Group(ds)| == |ds| + (|ds| - 1) / 3
    ensures GroupedShape(Group(ds))
  {
    if |ds| > 3 {
      var head := ds[..|ds| - 3];
      var tail := ds[|ds| - 3..];
      assert AllDigits(head) && AllDigits(tail);
      GroupShape(head);
      GroupedStep(Group(head), tail);
    }
  }

  /** A comma and three more digits keep the shape. */
  lemma {:induction false} GroupedStep(g: string, tail: string)
    requires GroupedShape(g) && |tail| == 3 && AllDigits(tail)
    ensures GroupedShape(g + [','] + tail)
  {
    var r := g + [','] + tail;
    forall i | 0 <= i < |r|
      ensures (r[i] == ',' <==> (|r| - i) % 4 == 0) && (IsDigit(r[i]) || r[i] == ',')
    {
      if i < |g| {
        assert r[i] == g[i];
        ModFourShift(|g| - i);
      } else if i == |g| {
        assert r[i] == ',' && |r| - i == 4;
      } else {
        var j := i - |g| - 1;
        assert r[i] == tail[j] && IsDigit(tail[j]);
        assert 1 <= |r| - i <= 3;
      }
    }
  }

  lemma ModFourShift(a: int)
    requires a >= 0
    ensures (a + 4) % 4 == a % 4
  {
  }

  /** Grouping keeps the leading digit in front. */
  lemma {:induction false} GroupFirst(ds: string)
    requires |ds| > 0 && AllDigits(ds)
    ensures Group(ds)[0] == ds[0]
    ensures |ds| == 1 ==> Group(ds) == ds
  {
    if |ds| > 3 {
      var head := ds[..|ds| - 3];
      assert AllDigits(head);
      GroupFirst(head);
      assert head[0] == ds[0];
    }
  }

  /** Dropping the commas from grouped digits gives back the digits. */
  lemma {:induction false} UngroupGroup(ds: string)
    requires |ds| > 0 && AllDigits(ds)
    ensures RemoveChar(Group(ds), ',') == ds
  {
    if |ds| > 3 {
      var head := ds[..|ds| - 3];
      var tail := ds[|ds| - 3..];
      DigitsSplit(ds, |ds| - 3);
      assert Group(ds) == Group(head) + [','] + tail;
      UngroupGroup(head);
      DropSeparator(Group(head), tail);
    } else {
      NoCommaInDigits(ds);
    }
  }

  lemma DigitsSplit(ds: string, k: nat)
    requires k <= |ds| && AllDigits(ds)
    ensures AllDigits(ds[..k]) && AllDigits(ds[k..])
    ensures ds == ds[..k] + ds[k..]
  {
  }

  /** The comma before a group of digits disappears, the digits stay. */
  lemma DropSeparator(g: string, tail: string)
    requires AllDigits(tail)
    ensures RemoveChar(g + [','] + tail, ',') == RemoveChar(g, ',') + tail
  {
    var gc := g + [','];
    RemoveCharAppend(gc, tail, ',');
    RemoveCharAppend(g, [','], ',');
    RemoveSeparatorOnly();
    NoCommaInDigits(tail);
  }

  lemma RemoveSeparatorOnly()
    ensures RemoveChar([','], ',') == []
  {
    assert [','][1..] == [];
  }

  lemma NoCommaInDigits(ds: string)
    requires AllDigits(ds)
    ensures RemoveChar(ds, ',') == ds
  {
  }
}
